=== FILE: README.md ===
# fuse sync engine, modelled in Dafny

The fuse WordPress plugin copies a remote JSON dataset into posts of one post type. It
works in batches, driven by two cron hooks:

- The daily **parent** run fetches the dataset. When no batch is running, it stores a
  tracker `{timestamp, total, pointer}` in an option named `fuse_schedule_<post type>`.
- The five-minute **child** run fetches the dataset again. It hands the 10 records at the
  pointer to the updater, then advances the pointer. Once the pointer reaches or passes
  the total, the tracker is deleted.
- The **updater** maps each record to `wp_insert_post` arguments, meta and taxonomy terms.
  It does this through the three field-mapping tables of the configuration. It keys every
  post by the record's external id, kept in the `fuse_id` post meta. So a record already
  synced is written over and never duplicated.
- **Cleanup** deletes synced posts whose external id is no longer in the dataset.
- **`Fuse_Cron`** maps an interval to a WordPress recurrence. It reuses `hourly`,
  `twicedaily` or `daily` when the interval matches one of them. Otherwise it adds an
  `every_<n>_seconds` schedule. It schedules the hook once.

The model is written as pure functions over immutable data:

- PHP string-keyed arrays become ordered association lists (`Assoc.Entries`). Overwriting a
  key keeps its position, a new key is appended, and `array_merge` lets later keys win.
- Decoded JSON becomes `Php.Value`.
- The WordPress database becomes `WordPress.Store`: posts by native id, each with its
  fields, meta and terms per taxonomy; and terms keyed by taxonomy and slug.
- WordPress's text helpers, and the cases where WordPress refuses a write, are
  uninterpreted functions in `WordPress.Env`. So every property holds whatever they do.
- The API response is a parameter, `Fuse.Fetch`. The options table is a map from option
  key to tracker. The cron registry is a map from hook to event. The clock is a `now`
  parameter.

Files:

| file | contents |
|---|---|
| `wrappers.dfy` | `Option`, `Result` |
| `php.dfy` | values, truthiness, the `(int)` cast, `absint`, the exceptions thrown |
| `strings.dfy` | `explode`/`implode` on one character, `trim`, decimal rendering and `(int)` parsing |
| `assoc.dfy` | PHP arrays with string keys |
| `wordpress.dfy` | the post and term store, `get_posts` by meta, `wp_insert_post`, `term_exists`, `wp_insert_term`, `wp_set_object_terms` |
| `config.dfy` | `Fuse_Config` |
| `cron.dfy` | `Fuse_Cron` |
| `updater.dfy` | `Fuse_Updater` |
| `fuse.dfy` | `Fuse`: the tracker state machine, the cron registration, the child run with the real updater |

Where the plugin's documentation and its code disagree, the model follows the code:

- **Child interval.** The child cron runs every 300 seconds (`lib/class-fuse.php:190`).
  The configuration's `child_interval` default is 600, and nothing reads it.
- **Batch size.** The batch size is the class constant 10 (`lib/class-fuse.php:60`). The
  configuration's `batch_size` is never read.
- **Pointer past the total.** `update_schedule_tracker` deletes the tracker only when the
  new pointer is exactly the total (`===` at `lib/class-fuse.php:243`). With 23 records
  the pointer goes 0, 10, 20, 30. The next child run deletes the tracker because
  30 >= 23. The invariant proved is therefore `0 <= pointer < total + 10`, with the
  pointer a multiple of 10 and never equal to the total. It is not `pointer <= total`.
- **No reconciliation run.** Nothing in `lib/class-fuse.php` calls `cleanup`, and no
  cleanup hook is scheduled. `Cleanup` is modelled as a stand-alone operation of the
  updater.
- **Cleanup id property.** Cleanup reads the record id as the property named by the "ID"
  rule's `api_field_key` (`$post->{$id_key}`). It does not walk a dot path.

## Model

| member | source | states |
|---|---|---|
| Php.AbsInt | lib/class-fuse-updater.php:49-50 | `absint` is the magnitude of the `(int)` cast: never negative, and the cast itself when that is non-negative |
| Php.IntValOfStoredNat | lib/class-fuse-updater.php:270 | the `(int)` cast reads a non-negative external id the same from the decimal string the database stores meta as, so comparing stored ids loses nothing |
| Strings.Split | lib/class-fuse-updater.php:65 | `explode('.', $prop)` gives at least one piece, no piece holds a '.', and gluing the pieces back with '.' gives the path |
| Strings.SplitJoin | lib/class-fuse-updater.php:65 | the other half of the round trip: exploding the implosion of dot-free pieces gives the pieces back |
| Strings.SplitOfPlain | lib/class-fuse-updater.php:65 | a path with no '.' explodes to itself alone, so it names a single property |
| Strings.Trim | lib/class-fuse-cron.php:27 | the trimmed hook neither starts nor ends with a character `trim` strips, and is no longer than the original |
| Strings.TrimOnlyStripsEnds | lib/class-fuse-cron.php:27 | `trim` removes a run of strippable characters at each end and nothing else: the result is a contiguous piece of the hook |
| Strings.TrimOfClean | lib/class-fuse-cron.php:27 | a hook with no strippable character at either end is left exactly as it is |
| Strings.TrimIdempotent | lib/class-fuse-cron.php:27 | trimming a trimmed hook changes nothing |
| Strings.NatToString | lib/class-fuse-cron.php:81 | the interval written into a custom recurrence name is a non-empty string of digits with no leading zero |
| Strings.DigitsValueOfNatToString | lib/class-fuse-cron.php:81 | reading the digits of a rendered interval gives the interval back |
| Strings.NatToStringInjective | lib/class-fuse-cron.php:81 | two different intervals never render to the same digits, so never share a custom recurrence name |
| Assoc.Put | lib/class-fuse-config.php:143-148 | `$map[$key] = $v`: the key then reads `$v` and every other key reads as before; an existing key keeps its position, a new key is appended |
| Assoc.PutKeepsUnique | lib/class-fuse-config.php:143-148 | writing a key into an array whose keys are distinct keeps them distinct |
| Assoc.Remove | lib/class-fuse-updater.php:132 | `unset($args['ID'])`: the key is gone and every other key reads as before |
| Assoc.Merge | lib/class-fuse-updater.php:101-105 | `array_merge` of string-keyed arrays has the keys of both; a key only in the first keeps its value, and a key of the second takes the second's value |
| WordPress.FindPost | lib/class-fuse-updater.php:116-124 | the one-post meta query finds a post of the post type whose `fuse_id` equals the value; a value of "", null or an empty array is dropped from the query, which then finds any post of the type carrying `fuse_id`; it returns the least such id, and finding none means no stored post qualifies |
| WordPress.SetObjectTerms | lib/class-fuse-updater.php:148 | `wp_set_object_terms(..., false)` replaces the post's terms in that taxonomy and leaves its other taxonomies, its fields, its meta and every other post alone |
| FuseConfig.NewConfig | lib/class-fuse-config.php:91-105 | the constructor keeps the three strings, starts with empty mapping tables, and defaults batch size 10, parent interval 86400 and child interval 600 |
| FuseConfig.ApiUrl | lib/class-fuse-config.php:110-112 | the API URL is the base followed by the endpoint, with no separator added or removed |
| FuseConfig.ApiUrlKeepsDoubleSlash | lib/class-fuse-config.php:110-112 | a base ending in '/' and an endpoint starting with '/' give "//" in the URL |
| FuseConfig.WithDefaults | lib/class-fuse-config.php:132-140 | `wp_parse_args` keeps every key the caller gave and fills each missing one with its default ('insert', '', '', false, '') |
| FuseConfig.WithDefaultsIdempotent | lib/class-fuse-config.php:132-140 | defaulting an already defaulted rule changes nothing |
| FuseConfig.DefineFieldMap | lib/class-fuse-config.php:128-150 | the defaulted rule is set under its key in the table its `meta_type` names ('insert', 'meta', 'tax' or 'taxonomy'); the other tables and fields are untouched, and any other `meta_type` changes nothing |
| FuseConfig.RedefineOverwritesInPlace | lib/class-fuse-config.php:143-144 | redefining a key of the post-argument table keeps that table's key order |
| FuseConfig.DefineFieldMapKeepsUnique | lib/class-fuse-config.php:142-149 | defining a field keeps every table free of duplicate keys |
| FuseCron.CustomIsNotDefault | lib/class-fuse-cron.php:81 | a custom `every_<n>_seconds` name is never one of the default recurrences, so `add_schedule` always registers it |
| FuseCron.Recurrence | lib/class-fuse-cron.php:72-92 | `set_recurrence` picks the first default schedule in `wp_get_schedules()` order whose interval equals this one; with no such schedule it picks `every_<n>_seconds`; the result is always one of these two kinds |
| FuseCron.Init | lib/class-fuse-cron.php:25-31 | the constructed cron's hook is `trim(hook)` (so it has no strippable ends and is no longer than given), its interval is the `absint` of the one given, and its recurrence is the one `set_recurrence` picks for that interval |
| FuseCron.AddSchedule | lib/class-fuse-cron.php:54-66 | a default recurrence leaves the schedules alone; a custom one is set to this interval and its label, with every other schedule unchanged |
| FuseCron.ScheduleEvent | lib/class-fuse-cron.php:48-52 | a hook with a pending event is left alone; otherwise it is scheduled now under the cron's recurrence when WordPress knows that recurrence, and left unscheduled when WordPress does not; no other hook changes |
| FuseCron.ScheduleEventIdempotent | lib/class-fuse-cron.php:48-52 | scheduling the same cron again, at any later time, changes nothing |
| FuseCron.Unschedule | lib/class-fuse-cron.php:68-70 | the hook's event is cleared and every other hook's event is kept |
| FuseCron.InitThenScheduleRegistersHook | lib/class-fuse-cron.php:25-66 | constructing a cron, filtering the schedules through `add_schedule` and running `schedule_event` always leaves the hook scheduled, whatever the interval |
| FuseCron.DailyIntervalReusesDaily | lib/class-fuse-cron.php:72-78 | with WordPress's own schedules an interval of 86400 reuses "daily" |
| FuseCron.FiveMinutesIsCustom | lib/class-fuse-cron.php:72-82 | with WordPress's own schedules an interval of 300 gets the custom "every_300_seconds" |
| FuseUpdater.Sanitize | lib/class-fuse-updater.php:43-54 | 'number' gives the non-negative `absint`; 'date' the text-sanitised reformatted date; 'string' and every other type the text-sanitised value |
| FuseUpdater.SanitizeNumberIdempotent | lib/class-fuse-updater.php:49-50 | sanitising a 'number' value a second time changes nothing, since `absint` already gave a non-negative integer |
| FuseUpdater.WalkObject | lib/class-fuse-updater.php:64-88 | a falsy or missing first segment gives null; a one-segment path gives the property; a longer path either gives a value or fails with the path named in the error |
| FuseUpdater.WalkObjectNestedPresent | lib/class-fuse-updater.php:75-87 | a nested path whose every segment is present resolves to the value at its end |
| FuseUpdater.WalkObjectMissingSegmentThrows | lib/class-fuse-updater.php:76-85 | a nested path throws "Error on field" as soon as a later segment is not a property of the value reached so far |
| FuseUpdater.WalkObjectAsWritten | lib/class-fuse-updater.php:64-88 | the loop as written: a nested path with a usable first segment never yields a value; on every other path it agrees with `WalkObject` |
| FuseUpdater.NestedPathDiesAsWritten | lib/class-fuse-updater.php:77-84 | "meta.count" on `{meta: {count: "7"}}` dies as written, while the intended walk finds "7" |
| FuseUpdater.GetFieldValue | lib/class-fuse-updater.php:160-170 | a truthy `manual` gives `manual_value` (null when absent) without reading the record; otherwise exactly the walk's value sanitised by the rule's type (so a non-negative integer for 'number', a string for every other type), failing exactly when the walk fails |
| FuseUpdater.GetFieldValueOfProperty | lib/class-fuse-updater.php:160-170 | a non-manual rule on a plain property name present in the record gives that property sanitised by type; under 'number' a non-negative integer property comes back unchanged |
| FuseUpdater.ManualIgnoresRecord | lib/class-fuse-updater.php:161-167 | a manual rule gives the same value for every record |
| FuseUpdater.NestedNumberExample | lib/class-fuse-updater.php:160-170 | a 'number' rule on "meta.count" reads `{meta: {count: "7"}}` as the integer 7 |
| FuseUpdater.GetMetaMap | lib/class-fuse-updater.php:180-188 | succeeds exactly when every rule's field value does; then it holds one entry per rule, in rule order and under the rule's key, with that rule's value |
| FuseUpdater.MetaMapFirstError | lib/class-fuse-updater.php:183-185 | a failing meta map reports the error of the first rule that fails, every earlier rule having succeeded |
| FuseUpdater.MetaMapGet | lib/class-fuse-updater.php:183-185 | looking a key up in the meta map gives the field value of the rule under that key |
| FuseUpdater.ResolveTerm | lib/class-fuse-updater.php:207-224 | a term whose slug exists is reused and nothing is created; a missing one is created under the next term id; a rejected creation leaves the store alone and keeps the raw value; every existing term keeps its id, the next term id never goes back, and posts are never touched |
| FuseUpdater.ResolveTermTwice | lib/class-fuse-updater.php:209-221 | resolving a term again reuses what the first resolution found or created, so nothing new is created |
| FuseUpdater.ResolveTerms | lib/class-fuse-updater.php:207-224 | one entry per taxonomy in the same order; an unresolved entry keeps its raw field value; terms are only ever added, every existing term keeps its id, and posts are not touched |
| FuseUpdater.GetTaxonomyMap | lib/class-fuse-updater.php:198-227 | fails, with the same error, exactly when the field values fail (before any term is touched); otherwise one entry per taxonomy rule, with posts untouched and every existing term kept under its id |
| FuseUpdater.AssignTerms | lib/class-fuse-updater.php:146-149 | each taxonomy's terms on the post become the ids its entry resolves to: the resolved term, or for a raw value WordPress assigns nothing for (an `empty()` value such as null, false, 0, "0" or "", a string that trims to "", or an integer naming no term) no terms at all; a raw value WordPress fails on leaves that taxonomy alone; other taxonomies, fields, meta, the term store and every other post are unchanged |
| FuseUpdater.RawTermIds | lib/class-fuse-updater.php:146-149 | the ids `wp_set_object_terms` assigns for a raw value: none for an `empty()` value or a string that trims to ""; otherwise at most one id, which is the raw integer itself and names an existing term of the taxonomy |
| FuseUpdater.EmptyTermClearsTaxonomy | lib/class-fuse-updater.php:146-149 | a taxonomy field whose value is `empty()` (including "0") or trims to "", and could not be created as a term, leaves the post with no terms in that taxonomy |
| FuseUpdater.BuildArgs | lib/class-fuse-updater.php:101-115 | the first failing mapping table decides the error; with both tables read, the arguments exist exactly when there is an "ID" rule (else "Error on post <index>"); every mapped field keeps its mapped value, the meta holds every entry of the meta map with the ID under `fuse_id`, and there is no `meta_input` field |
| FuseUpdater.ArgFields | lib/class-fuse-updater.php:101-105 | every mapped key other than `meta_input` keeps its mapped value, and no other key appears but `post_type`, which is the configured type unless mapped; "ID" is present exactly when mapped |
| FuseUpdater.BuildArgsWellBuilt | lib/class-fuse-updater.php:101-115 | for a configuration that does not map `post_type`, the built arguments are of the configured post type and carry their ID under `fuse_id` |
| FuseUpdater.BuildArgsIdFromRule | lib/class-fuse-updater.php:101-115 | the external id of the arguments is the field value of the "ID" rule |
| FuseUpdater.UpsertArgs | lib/class-fuse-updater.php:116-133 | for a post the lookup finds, the arguments name that post and its own post_date; otherwise they carry no "ID"; every other field and the meta are passed through unchanged |
| FuseUpdater.Upsert | lib/class-fuse-updater.php:116-138 | a refused write changes nothing; otherwise it writes over the found post (no new post) or creates exactly one post under the next id; every other post and the terms are unchanged |
| FuseUpdater.UpsertKeepsPostDate | lib/class-fuse-updater.php:128-130 | an updated post keeps the non-empty post_date it had |
| FuseUpdater.UpsertWritesMatchingPost | lib/class-fuse-updater.php:115-135 | the written post is of the post type and carries the external id in its `fuse_id` meta, so the next lookup finds it |
| FuseUpdater.UpsertNoDuplicates | lib/class-fuse-updater.php:112-138 | for an external id the lookup filters on (not "", null or an empty array), upsert never makes a second post with it: the posts carrying it are unchanged when there were some, and are just the written post when there were none |
| FuseUpdater.UpsertKeepsMatches | lib/class-fuse-updater.php:116-135 | for an external id the lookup filters on, no post loses the external id it carried |
| FuseUpdater.UpsertKeepsUnique | lib/class-fuse-updater.php:116-135 | for an external id the lookup filters on, distinct synced posts keep distinct external ids |
| FuseUpdater.EmptyIdOverwritesSyncedPost | lib/class-fuse-updater.php:115-135 | as written, arguments whose ID is "" overwrite the synced post carrying 7, which no post carries afterwards |
| FuseUpdater.UpsertChecked | lib/class-fuse-updater.php:115-135 | the intended upsert writes nothing for an ID the lookup would drop; any post it writes is of the post type and carries the ID |
| FuseUpdater.UpsertCheckedKeepsIds | lib/class-fuse-updater.php:115-135 | with that check, no post loses its external id and external ids stay unique, whatever the derived ID |
| FuseUpdater.UpdateRecord | lib/class-fuse-updater.php:99-150 | a record whose arguments cannot be built raises that error and writes nothing |
| FuseUpdater.UpdateRecordOutcome | lib/class-fuse-updater.php:135-149 | a record that raised nothing had its arguments built and every taxonomy field read; a refused write leaves the store as it was |
| FuseUpdater.UpdateRecordStages | lib/class-fuse-updater.php:140-149 | the taxonomy stage after the write changes only terms: fields and meta are those the upsert left |
| FuseUpdater.UpdateRecordCreatesAtMostOne | lib/class-fuse-updater.php:128-135 | one record creates at most one post, under the next free id |
| FuseUpdater.UpdateRecordNoDuplicates | lib/class-fuse-updater.php:112-138 | for a configuration that does not map `post_type` and an ID the lookup filters on, the posts carrying the record's external id are those from before, or at most one new one; unless the write was refused, some post carries it |
| FuseUpdater.UpdateRecordKeepsValid | lib/class-fuse-updater.php:99-150 | native post ids stay positive and below the next id |
| FuseUpdater.UpdateRecordSyncs | lib/class-fuse-updater.php:112-138 | for a configuration that does not map `post_type`, a record that raised nothing has a post carrying its external id afterwards |
| FuseUpdater.UpdateRecordOfSyncedCreatesNothing | lib/class-fuse-updater.php:128-135 | a record whose post exists creates no post: the write goes to the existing one |
| FuseUpdater.UpdateRecordKeeps | lib/class-fuse-updater.php:99-150 | for a configuration that does not map `post_type` and an ID the lookup filters on, no post loses its external id, and distinct synced posts keep distinct ids |
| FuseUpdater.Update | lib/class-fuse-updater.php:96-151 | a batch keeps native post ids valid |
| FuseUpdater.UpdateFromHead | lib/class-fuse-updater.php:99-150 | in a batch that raised nothing, the first record raised nothing and had its arguments built |
| FuseUpdater.UpdateFromFailsFast | lib/class-fuse-updater.php:99-150 | a batch that raised stopped at some record: every record before it raised nothing, and the batch ends in exactly that record's outcome, so no later record is written |
| FuseUpdater.UpdateFromKeeps | lib/class-fuse-updater.php:96-151 | for a configuration that does not map `post_type` and records whose IDs the lookup filters on, across a batch no post loses its external id, and external ids stay unique |
| FuseUpdater.UpdateFromSyncsEveryRecord | lib/class-fuse-updater.php:96-151 | for a configuration that does not map `post_type` and records whose IDs the lookup filters on, after a batch that raised nothing every record of it has a post carrying its external id |
| FuseUpdater.UpdateFromOfSyncedCreatesNothing | lib/class-fuse-updater.php:96-151 | for a configuration that does not map `post_type` and records whose IDs the lookup filters on, a batch whose every record already has its post creates no post |
| FuseUpdater.UpdateTwiceCreatesNothing | lib/class-fuse-updater.php:96-151 | for a configuration that does not map `post_type` and records whose IDs the lookup filters on, running a batch again after it went through creates no post, so retrying a batch is safe |
| FuseUpdater.UpdateKeepsUnique | lib/class-fuse-updater.php:96-151 | for a configuration that does not map `post_type` and records whose IDs the lookup filters on, a batch keeps external ids unique among the synced posts |
| FuseUpdater.NumericIdRuleQueries | lib/configs/post.php:15-24 | an "ID" rule read from the record as a 'number', as the shipped post configuration defines it, makes every derived ID an integer, which the lookup always filters on |
| FuseUpdater.UpdateWithoutIdRuleFails | lib/class-fuse-updater.php:107-110 | without an "ID" rule the first record aborts the batch with "Error on post 0" and nothing is written |
| FuseUpdater.ApiIds | lib/class-fuse-updater.php:263-266 | the API ids are exactly the `(int)` of every record's id property |
| FuseUpdater.Cleanup | lib/class-fuse-updater.php:238-275 | a post is deleted exactly when it is a synced post of the post type whose `(int)` external id is not among the API ids; the posts kept are unchanged |
| FuseUpdater.CleanupKeepsDatasetPosts | lib/class-fuse-updater.php:269-274 | a synced post whose id matches some record's id survives cleanup |
| FuseUpdater.CleanupKeepsInvariants | lib/class-fuse-updater.php:269-274 | cleanup only removes posts, so native ids stay valid and external ids stay unique |
| FuseUpdater.CleanupIdempotent | lib/class-fuse-updater.php:238-275 | a second cleanup against the same data deletes nothing more |
| FuseUpdater.CleanupWithoutIdRuleDeletesSynced | lib/class-fuse-updater.php:256-266 | as written, without an "ID" rule nothing is thrown and every record's id reads as 0, so every synced post with a non-zero external id is deleted |
| FuseUpdater.CleanupWithoutIdRuleExample | lib/class-fuse-updater.php:256-274 | the API still lists record 5, yet the post synced from it is deleted |
| FuseUpdater.CleanupChecked | lib/class-fuse-updater.php:256-261 | the intended cleanup raises "No ID key found in postarr_map" exactly when there is no "ID" rule, deleting nothing; otherwise it only removes posts |
| FuseUpdater.CleanupCheckedKeepsListedPosts | lib/class-fuse-updater.php:256-274 | with the check in place, a post synced from a record the API still lists is never deleted |
| Fuse.OptionsKeyInjective | lib/class-fuse.php:69 | distinct post types keep their trackers under distinct options |
| Fuse.HooksDistinct | lib/class-fuse.php:175-193 | a post type's parent and child crons never share a hook |
| Fuse.SetTracker | lib/class-fuse.php:219-231 | the tracker holds the given total and pointer, and the current time for a falsy timestamp; other options are unchanged |
| Fuse.DeleteTracker | lib/class-fuse.php:256-258 | the tracker is gone and other options are unchanged |
| Fuse.UpdateTracker | lib/class-fuse.php:237-251 | no tracker: nothing, false; a pointer exactly equal to the total: tracker deleted, false; otherwise only the pointer changes, true |
| Fuse.ParentProcess | lib/class-fuse.php:116-135 | while a batch runs, nothing changes; otherwise an empty or failed fetch raises "API failure", and a dataset starts a tracker at pointer 0 with its size and the current time |
| Fuse.ArraySlice | lib/class-fuse.php:164 | `array_slice` takes at most `length` records from the offset; a negative offset counts from the end, and an offset past the end gives nothing |
| Fuse.ChildProcess | lib/class-fuse.php:141-170 | no tracker: nothing; pointer at or past the total: tracker deleted; failed fetch: "API failure", tracker kept; otherwise the batch at the pointer is applied, and the pointer advances by 10 only when the updater raised nothing |
| Fuse.ParentKeepsReachable | lib/class-fuse.php:116-135 | a parent run keeps the tracker in the states the two runs can reach |
| Fuse.ChildKeepsReachable | lib/class-fuse.php:141-170 | a child run keeps the tracker reachable, whatever the updater does |
| Fuse.ParentIgnoresFetchWhileRunning | lib/class-fuse.php:117-121 | while a batch runs, the parent leaves the tracker alone whatever the API returns |
| Fuse.ChildAdvancesByOneBatch | lib/class-fuse.php:163-169 | a child run keeps the pointer, moves it forward by exactly 10, or ends the batch |
| Fuse.Chunks | lib/class-fuse.php:164 | every batch handed over holds between 1 and 10 records |
| Fuse.ChunksCover | lib/class-fuse.php:164-169 | the batches from the pointer on cover the rest of the dataset exactly once, in order |
| Fuse.RunsToFinishSteps | lib/class-fuse.php:149-169 | a reachable tracker needs at least one more run; the last batch or an overshot pointer needs one; every other run leaves one run fewer |
| Fuse.DrainHandsOverEveryBatch | lib/class-fuse.php:141-170 | against an unchanging API response, the child runs hand the updater exactly the remaining batches, in order, then delete the tracker |
| Fuse.TwentyThreeRecordTrace | lib/class-fuse.php:116-170 | for 23 records the pointer goes 0, 10, 20, then 30 past the total, and the fourth child run deletes the tracker after batches of 10, 10 and 3 |
| Fuse.ChildTick | lib/class-fuse.php:163-169 | a child run with the real updater keeps native post ids valid and writes nothing when no batch is running |
| Fuse.ChildTickSyncsBatch | lib/class-fuse.php:163-169 | for a configuration that does not map `post_type` and a batch whose IDs the lookup filters on, a child run that raised nothing left every record of its batch with a post carrying its external id, and external ids unique |
| Fuse.RegisterParent | lib/class-fuse.php:175-181 | the parent cron is bound to the hook `fuse_cron_<post type>_parent` and runs every 86400 seconds under the recurrence chosen for that interval |
| Fuse.RegisterChild | lib/class-fuse.php:187-193 | the child cron is bound to the hook `fuse_cron_<post type>_child` and runs every 300 seconds under the recurrence chosen for that interval |
| Fuse.RegisteredRecurrences | lib/class-fuse.php:175-193 | with WordPress's own schedules the parent runs "daily" and the child on its own "every_300_seconds" |
| Fuse.RemoveChildSchedule | lib/class-fuse.php:199-203 | only a registered child cron is unscheduled; every other hook is kept |

## Left out

- The API request (`Fuse_API_Request`, its HTTP call and one-hour cache). The decoded response is the `Fetch` parameter; a failed or empty response is `Failed` or an empty list. A child run's fetch is a separate parameter, so the model does not assume the cache gives both runs the same snapshot. `DrainHandsOverEveryBatch` assumes it explicitly.
- `time()`, `current_time` and the cron clock: the `now` parameters and `Env.now`.
- `register`, `handle`, `add_action` and `add_filter`. `Fuse_Cron` is modelled through what its hooks do when WordPress fires them (`AddSchedule`, `ScheduleEvent`), not through hook wiring.
- The `args` of `Fuse_Cron`: they are always empty in this plugin, so the registry is keyed by hook alone.
- `__()` translation of the schedule label.
- Which other plugins' `cron_schedules` filters run, and in which order: the schedules are a parameter.
- `sanitize_text_field`, `sanitize_title` and `wp_date(strtotime(...))` are uninterpreted functions in `Env`.
- Whether WordPress refuses a post write or a term creation is uninterpreted too, as `Env.rejectsPost` and `Env.rejectsTerm`. `wp_insert_post` hooks, revisions, slugs and the rest of its internals are not modelled.
- `get_post_datetime(...)->format(...)`: the updated post's stored `post_date` is passed back as it is.
- `get_posts` ordering: the model's lookup returns the least matching id, where WordPress returns the newest post. With external ids unique and a lookup that filters on the id, at most one post matches and the order does not matter; for an empty id (see "## Findings") it decides which post is overwritten.
- FindPost: the database compares meta as strings, so `Int(7)` and `Str("7")` would match there; the model compares stored values, which agree as long as a configuration keeps one data type for its "ID" rule. A non-empty list value, which WordPress turns into an `IN` clause, is compared as a whole.
- `get_posts` post-status filtering (drafts, trash) is not modelled. Every stored post of the type is visible. WordPress's lookup at lib/class-fuse-updater.php:116-124 passes no `post_status`, so it finds only published posts, while `wp_insert_post` writes a draft unless the arguments say otherwise. A configuration that does not map `post_status` to 'publish' (lib/configs/post.php:48-56 does, through a manual value) therefore writes posts its own lookup never finds, and every run duplicates every record. UpsertNoDuplicates, UpsertKeepsUnique, UpdateRecordNoDuplicates, UpdateRecordKeeps, UpdateRecordOfSyncedCreatesNothing, UpdateFromKeeps, UpdateFromOfSyncedCreatesNothing, UpdateTwiceCreatesNothing, UpdateKeepsUnique and Fuse.ChildTickSyncsBatch hold for the program only with such a 'publish' rule.
- `wp_delete_post($id, false)` sends posts and pages to the trash rather than deleting them. The model removes the post from the store.
- Floats and exponent notation in the `(int)` cast: `Php.Value` has no floats. A numeric string is read by its optional sign and leading digits.
- `Php.IntVal` does not model PHP's 64-bit saturation of very long numeric strings; integers are unbounded.
- PHP 8's `TypeError` from `array_key_exists` on an object and PHP 7's "Cannot use object of type stdClass as array" are both modelled as the single `PhpError`.
- AssignTerms: the model follows a `wp_set_object_terms` that opens by turning an `empty()` value into no terms. For a raw value it tries to create as a term again (a string that is neither `empty()` nor blank after trimming, or `true`), the model takes the creation to fail as the first attempt did, since `Env.rejectsTerm` answers the same for the same arguments; a term found by name rather than slug is not modelled. A list or object raw value, which only a `manual_value` can produce, is treated the same way, though WordPress would walk its elements.
- A configuration that maps its own "post_type" field: the lemmas about duplicates and re-runs assume it does not, as `lib/configs/post.php` does not. With one, `update` looks posts up under the configured type but writes the mapped type, so every run creates a new post for every record.
- WalkObjectAsWritten follows PHP 7.4 when a nested path reaches a value that is not an object: `property_exists` then returns a falsy value and the walk throws "Error on field". Under PHP 8 that call is a `TypeError`, which would be `PhpError`.
- Concurrency: two overlapping runs of the same hook are not modelled. Every run is one atomic step.
- `Fuse.ParentProcess` requires a non-zero `now`, since `time()` is never 0. This excludes no real call.

## Findings

| source | as written | input that shows it | evidently intended | confidence | as-written member | corrected member |
|---|---|---|---|---|---|---|
| lib/class-fuse-updater.php:256-261 | the `try`/`catch` around `$this->config->postarr_map['ID']['api_field_key']` catches nothing, because an undefined array index is a warning, not an exception; with no "ID" rule `$id_key` is null, every record's id reads `(int) $post->{''}` = 0, and every synced post with a non-zero `fuse_id` is deleted | a config with no "ID" rule, one stored post with `fuse_id` 5, and data `[{id: 5}]`: the post is deleted | raise "No ID key found in postarr_map" and delete nothing | not executed; medium (the PHP semantics are standard, and nothing in the plugin calls `cleanup`) | FuseUpdater.CleanupWithoutIdRuleExample | FuseUpdater.CleanupCheckedKeepsListedPosts |
| lib/class-fuse-updater.php:76-85 | for a nested path, once `property_exists($value, $p)` holds, the loop reads `$value[$p]` (after `array_key_exists($p, $value)`) on a decoded JSON object, a `stdClass`; that is a fatal PHP error, so a nested path never yields a value | the path "meta.count" on the record `{meta: {count: "7"}}` | descend through object properties, giving "7" | not executed; medium (the response is decoded with `json_decode($body)`, so nested objects are `stdClass`) | FuseUpdater.NestedPathDiesAsWritten | FuseUpdater.WalkObjectNestedPresent |
| lib/class-fuse-updater.php:115-135 | `get_posts` is given `'meta_value' => $args['ID']`, and WordPress's meta query drops a `meta_value` of "" or null; for a record whose ID is empty the lookup returns a synced post carrying some other external id, and `wp_insert_post` writes the record over it, setting its `fuse_id` to "" | a stored post of type "post" with `fuse_id` 7, and arguments whose ID is "" (a 'string' rule on a missing property, or a manual rule without a value): post 1 is overwritten and no post carries 7 any more | write nothing for a record whose ID is empty | not executed; medium (WordPress documents that an empty `meta_value` is ignored; the shipped post configuration reads the ID as a 'number', which never gives an empty ID) | FuseUpdater.EmptyIdOverwritesSyncedPost | FuseUpdater.UpsertCheckedKeepsIds |

=== FILE: assoc.dfy ===
/**
 * A PHP array with string keys: an ordered map. Writing an existing key overwrites its
 * value in place; writing a new key appends it; `array_merge` lets later keys win.
 */
module Assoc {
  import opened Wrappers

  type Entries<V> = seq<(string, V)>

  /** The keys in array order. */
  function Keys<V>(t: Entries<V>): seq<string> {
    seq(|t|, i requires 0 <= i < |t| => t[i].0)
  }

  /** The keys of an entry followed by an array. */
  lemma {:induction false} KeysCons<V>(e: (string, V), t: Entries<V>)
    ensures Keys([e] + t) == [e.0] + Keys(t)
  {
    var l := [e] + t;
    forall i | 0 <= i < |l|
      ensures Keys(l)[i] == ([e.0] + Keys(t))[i]
    {
      if i > 0 {
        assert l[i] == t[i - 1];
      }
    }
  }

  /** `array_key_exists`. */
  predicate Has<V>(t: Entries<V>, k: string) {
    k in Keys(t)
  }

  /** No key occurs twice, as in every real PHP array. */
  predicate UniqueKeys<V>(t: Entries<V>) {
    forall i, j | 0 <= i < j < |t| :: t[i].0 != t[j].0
  }

  /** `$t[$k]`, or nothing when the key is absent. */
  function Get<V>(t: Entries<V>, k: string): (r: Option<V>)
    ensures r.Some? <==> Has(t, k)
  {
    if |t| == 0 then None
    else
      assert Keys(t) == [t[0].0] + Keys(t[1..]);
      if t[0].0 == k then Some(t[0].1) else Get(t[1..], k)
  }

  /** `$t[$k] = $v`: only key `k` changes; an existing key keeps its position, a new one goes last. */
  function Put<V>(t: Entries<V>, k: string, v: V): (r: Entries<V>)
    ensures Get(r, k) == Some(v)
    ensures forall k' | k' != k :: Get(r, k') == Get(t, k')
    ensures Has(t, k) ==> Keys(r) == Keys(t)
    ensures !Has(t, k) ==> r == t + [(k, v)]
  {
    if |t| == 0 then [(k, v)]
    else
      assert t == [t[0]] + t[1..];
      KeysCons(t[0], t[1..]);
      if t[0].0 == k then
        KeysCons((k, v), t[1..]);
        [(k, v)] + t[1..]
      else
        var rest := Put(t[1..], k, v);
        KeysCons(t[0], rest);
        [t[0]] + rest
  }

  /** Uniqueness depends on the keys alone. */
  lemma SameKeysUnique<V, W>(a: Entries<V>, b: Entries<W>)
    requires Keys(a) == Keys(b) && UniqueKeys(a)
    ensures UniqueKeys(b)
  {
    assert forall i | 0 <= i < |b| :: b[i].0 == Keys(b)[i] == Keys(a)[i] == a[i].0;
  }

  /** Keys that are unique stay unique under `Put`. */
  lemma {:induction false} PutKeepsUnique<V>(t: Entries<V>, k: string, v: V)
    requires UniqueKeys(t)
    ensures UniqueKeys(Put(t, k, v))
  {
    var r := Put(t, k, v);
    if Has(t, k) {
      assert forall i | 0 <= i < |r| :: r[i].0 == Keys(r)[i];
    } else {
      forall i | 0 <= i < |t|
        ensures t[i].0 != k
      {
        assert Keys(t)[i] == t[i].0;
      }
    }
  }

  /** `unset($t[$k])`: key `k` is gone, every other key reads as before. */
  function Remove<V>(t: Entries<V>, k: string): (r: Entries<V>)
    ensures Get(r, k) == None
    ensures forall k' | k' != k :: Get(r, k') == Get(t, k')
  {
    if |t| == 0 then []
    else if t[0].0 == k then Remove(t[1..], k)
    else
      var rest := Remove(t[1..], k);
      var r := [t[0]] + rest;
      assert r[1..] == rest;
      r
  }

  /** `array_merge($a, $b)` for string keys: every key of either array, `b`'s value winning. */
  function Merge<V>(a: Entries<V>, b: Entries<V>): (r: Entries<V>)
    ensures forall k :: Has(r, k) <==> Has(a, k) || Has(b, k)
    ensures forall k | !Has(b, k) :: Get(r, k) == Get(a, k)
    ensures UniqueKeys(b) ==> forall k :: Get(r, k) == if Has(b, k) then Get(b, k) else Get(a, k)
    decreases |b|
  {
    if |b| == 0 then a
    else
      var r := Merge(Put(a, b[0].0, b[0].1), b[1..]);
      MergeStep(a, b, r);
      r
  }

  /** What merging the rest of `b` into `a` with `b`'s first entry put gives, in terms of `a` and `b`. */
  lemma {:induction false} MergeStep<V>(a: Entries<V>, b: Entries<V>, r: Entries<V>)
    requires |b| > 0
    requires var a1 := Put(a, b[0].0, b[0].1);
             && (forall k :: Has(r, k) <==> Has(a1, k) || Has(b[1..], k))
             && (forall k | !Has(b[1..], k) :: Get(r, k) == Get(a1, k))
             && (UniqueKeys(b[1..]) ==> forall k :: Get(r, k) == if Has(b[1..], k) then Get(b[1..], k) else Get(a1, k))
    ensures forall k :: Has(r, k) <==> Has(a, k) || Has(b, k)
    ensures forall k | !Has(b, k) :: Get(r, k) == Get(a, k)
    ensures UniqueKeys(b) ==> forall k :: Get(r, k) == if Has(b, k) then Get(b, k) else Get(a, k)
  {
    var a1 := Put(a, b[0].0, b[0].1);
    assert b == [b[0]] + b[1..];
    KeysCons(b[0], b[1..]);
    forall k
      ensures Has(r, k) <==> Has(a, k) || Has(b, k)
    {
      assert Get(a1, k).Some? <==> Get(a, k).Some? || k == b[0].0;
    }
    if UniqueKeys(b) {
      UniqueTail(b);
      forall k
        ensures Get(r, k) == if Has(b, k) then Get(b, k) else Get(a, k)
      {
        assert Get(b, k) == if b[0].0 == k then Some(b[0].1) else Get(b[1..], k);
      }
    }
  }

  /** The rest of an array with unique keys has unique keys and lacks the first key. */
  lemma {:induction false} UniqueTail<V>(b: Entries<V>)
    requires |b| > 0 && UniqueKeys(b)
    ensures UniqueKeys(b[1..]) && !Has(b[1..], b[0].0)
  {
    forall i | 0 <= i < |b| - 1
      ensures b[1..][i].0 != b[0].0 && Keys(b[1..])[i] != b[0].0
    {
      assert b[1..][i] == b[i + 1];
    }
  }

  /** The array read as a finite map, as WordPress stores post fields and meta. */
  function ToMap<V>(t: Entries<V>): (m: map<string, V>)
    ensures forall k :: k in m <==> Has(t, k)
    ensures forall k | k in m :: Get(t, k) == Some(m[k])
  {
    map k | k in Keys(t) :: Get(t, k).value
  }
}

=== FILE: config.dfy ===
/**
 * `Fuse_Config`: the per-post-type descriptor — API location, the three field-mapping
 * tables and the (optional) batch size and intervals.
 */
module FuseConfig {
  import opened Wrappers
  import opened Php
  import opened Assoc

  /**
   * One field-mapping configuration array. Every key is optional, as in the caller's
   * array; `WithDefaults` fills the missing ones. `metaType` picks the table, `dataType`
   * the sanitisation, `apiFieldKey` the dot path into the API record, and a truthy
   * `manual` makes `manualValue` the value.
   */
  datatype FieldRule = FieldRule(
    metaType: Option<string>,
    dataType: Option<string>,
    apiFieldKey: Option<string>,
    manual: Option<Value>,
    manualValue: Option<Value>)

  datatype Config = Config(
    postType: string,
    apiEndpoint: string,
    api: string,
    postarrMap: Entries<FieldRule>,     // arguments of wp_insert_post
    metaInputMap: Entries<FieldRule>,   // post meta
    taxInputMap: Entries<FieldRule>,    // taxonomy terms
    batchSize: int,
    parentInterval: int,
    childInterval: int)

  const DefaultBatchSize := 10
  const DefaultParentInterval := 86400
  const DefaultChildInterval := 600

  /** The constructor: the three strings as given, empty tables, and the optional integers defaulted. */
  function NewConfig(postType: string, apiEndpoint: string, api: string,
                     batchSize: Option<int>, parentInterval: Option<int>, childInterval: Option<int>): (c: Config)
    ensures c.postType == postType && c.apiEndpoint == apiEndpoint && c.api == api
    ensures c.postarrMap == [] && c.metaInputMap == [] && c.taxInputMap == []
    ensures batchSize == None ==> c.batchSize == 10
    ensures parentInterval == None ==> c.parentInterval == 86400
    ensures childInterval == None ==> c.childInterval == 600
    ensures batchSize.Some? ==> c.batchSize == batchSize.value
    ensures parentInterval.Some? ==> c.parentInterval == parentInterval.value
    ensures childInterval.Some? ==> c.childInterval == childInterval.value
  {
    Config(postType, apiEndpoint, api, [], [], [],
           batchSize.GetOr(DefaultBatchSize),
           parentInterval.GetOr(DefaultParentInterval),
           childInterval.GetOr(DefaultChildInterval))
  }

  /** `get_api_url`: the base URL followed by the endpoint, with no separator inserted or removed. */
  function ApiUrl(c: Config): (url: string)
    ensures |url| == |c.api| + |c.apiEndpoint|
    ensures url[..|c.api|] == c.api && url[|c.api|..] == c.apiEndpoint
  {
    c.api + c.apiEndpoint
  }

  /** A base ending in '/' and an endpoint starting with '/' give a doubled separator. */
  lemma {:induction false} ApiUrlKeepsDoubleSlash(c: Config)
    requires |c.api| > 0 && c.api[|c.api| - 1] == '/'
    requires |c.apiEndpoint| > 0 && c.apiEndpoint[0] == '/'
    ensures ApiUrl(c)[|c.api| - 1..|c.api| + 1] == "//"
  {
    var url := ApiUrl(c);
    assert url[|c.api| - 1] == c.api[|c.api| - 1];
    assert url[|c.api|] == c.apiEndpoint[0];
  }

  /** `wp_parse_args($config, $default)`: caller keys win, missing keys take the defaults. */
  function WithDefaults(rule: FieldRule): (r: FieldRule)
    ensures r.metaType.Some? && r.dataType.Some? && r.apiFieldKey.Some? && r.manual.Some? && r.manualValue.Some?
    ensures rule.metaType.Some? ==> r.metaType == rule.metaType
    ensures rule.dataType.Some? ==> r.dataType == rule.dataType
    ensures rule.apiFieldKey.Some? ==> r.apiFieldKey == rule.apiFieldKey
    ensures rule.manual.Some? ==> r.manual == rule.manual
    ensures rule.manualValue.Some? ==> r.manualValue == rule.manualValue
    ensures rule.metaType.None? ==> r.metaType == Some("insert")
    ensures rule.dataType.None? ==> r.dataType == Some("")
    ensures rule.apiFieldKey.None? ==> r.apiFieldKey == Some("")
    ensures rule.manual.None? ==> r.manual == Some(Bool(false))
    ensures rule.manualValue.None? ==> r.manualValue == Some(Str(""))
  {
    FieldRule(
      Some(rule.metaType.GetOr("insert")),
      Some(rule.dataType.GetOr("")),
      Some(rule.apiFieldKey.GetOr("")),
      Some(rule.manual.GetOr(Bool(false))),
      Some(rule.manualValue.GetOr(Str(""))))
  }

  /** Defaulting a complete rule changes nothing, so defaulting twice is defaulting once. */
  lemma WithDefaultsIdempotent(rule: FieldRule)
    ensures WithDefaults(WithDefaults(rule)) == WithDefaults(rule)
  {
  }

  /** `after` is `before` with key `k` set to `v` and every other key as it was. */
  ghost predicate SetOnly<V>(before: Entries<V>, after: Entries<V>, k: string, v: V) {
    && Get(after, k) == Some(v)
    && forall k' | k' != k :: Get(after, k') == Get(before, k')
  }

  /**
   * `define_field_map`: default the rule, then file it under `key` in the table its
   * `meta_type` names — 'insert' the post arguments, 'meta' the meta table, 'tax' or
   * 'taxonomy' the taxonomy table — and drop it for any other `meta_type`.
   */
  function DefineFieldMap(c: Config, key: string, rule: FieldRule): (r: Config)
    ensures var d := WithDefaults(rule);
            d.metaType == Some("insert") ==>
              SetOnly(c.postarrMap, r.postarrMap, key, d)
              && r.metaInputMap == c.metaInputMap && r.taxInputMap == c.taxInputMap
    ensures var d := WithDefaults(rule);
            d.metaType == Some("meta") ==>
              SetOnly(c.metaInputMap, r.metaInputMap, key, d)
              && r.postarrMap == c.postarrMap && r.taxInputMap == c.taxInputMap
    ensures var d := WithDefaults(rule);
            (d.metaType == Some("tax") || d.metaType == Some("taxonomy")) ==>
              SetOnly(c.taxInputMap, r.taxInputMap, key, d)
              && r.postarrMap == c.postarrMap && r.metaInputMap == c.metaInputMap
    ensures var t := WithDefaults(rule).metaType.value;
            t != "insert" && t != "meta" && t != "tax" && t != "taxonomy" ==> r == c
    ensures r.(postarrMap := c.postarrMap, metaInputMap := c.metaInputMap, taxInputMap := c.taxInputMap) == c
  {
    var d := WithDefaults(rule);
    var t := d.metaType.value;
    if t == "insert" then c.(postarrMap := Put(c.postarrMap, key, d))
    else if t == "meta" then c.(metaInputMap := Put(c.metaInputMap, key, d))
    else if t == "tax" || t == "taxonomy" then c.(taxInputMap := Put(c.taxInputMap, key, d))
    else c
  }

  /** Redefining a key keeps the table's key order (and so its length): the entry is overwritten in place. */
  lemma RedefineOverwritesInPlace(c: Config, key: string, rule: FieldRule)
    requires Has(c.postarrMap, key)
    requires WithDefaults(rule).metaType == Some("insert")
    ensures Keys(DefineFieldMap(c, key, rule).postarrMap) == Keys(c.postarrMap)
  {
  }

  /** Every table built by `define_field_map` from a well-formed config stays free of duplicate keys. */
  lemma {:induction false} DefineFieldMapKeepsUnique(c: Config, key: string, rule: FieldRule)
    requires UniqueKeys(c.postarrMap) && UniqueKeys(c.metaInputMap) && UniqueKeys(c.taxInputMap)
    ensures var r := DefineFieldMap(c, key, rule);
            UniqueKeys(r.postarrMap) && UniqueKeys(r.metaInputMap) && UniqueKeys(r.taxInputMap)
  {
    var d := WithDefaults(rule);
    PutKeepsUnique(c.postarrMap, key, d);
    PutKeepsUnique(c.metaInputMap, key, d);
    PutKeepsUnique(c.taxInputMap, key, d);
  }
}

=== FILE: cron.dfy ===
/**
 * `Fuse_Cron`: a named recurring hook. Its interval is mapped to a recurrence name —
 * one of WordPress's default schedules when the interval matches one, otherwise a custom
 * `every_<n>_seconds` schedule that it adds to the schedules dictionary — and the hook
 * is scheduled once.
 */
module FuseCron {
  import opened Wrappers
  import opened Assoc
  import Strings

  /** One entry of `wp_get_schedules()`: interval in seconds and a display label. */
  datatype Schedule = Schedule(interval: int, display: string)

  /** The cron object after construction: trimmed hook, non-negative interval, recurrence name. */
  datatype Cron = Cron(hook: string, interval: nat, recurrence: string)

  /** A scheduled event: first run time and recurrence name. */
  datatype Event = Event(timestamp: int, recurrence: string)

  /** The schedules registry `wp_next_scheduled`/`wp_schedule_event` work on, keyed by hook. */
  type Registry = map<string, Event>

  /** The schedules WordPress itself registers, in its own order. */
  const CoreSchedules: Entries<Schedule> := [
    ("hourly", Schedule(3600, "Once Hourly")),
    ("twicedaily", Schedule(43200, "Twice Daily")),
    ("daily", Schedule(86400, "Once Daily")),
    ("weekly", Schedule(604800, "Once Weekly"))]

  /** `default_wp_recurrences`: the names a cron may reuse instead of adding its own schedule. */
  predicate IsDefaultRecurrence(name: string) {
    name == "hourly" || name == "twicedaily" || name == "daily"
  }

  function Abs(i: int): nat {
    if i < 0 then -i else i
  }

  /** The name of the custom schedule for an interval with no default match. */
  function CustomRecurrence(interval: nat): string {
    "every_" + Strings.NatToString(interval) + "_seconds"
  }

  /** The label `add_schedule` gives a custom schedule (translation is not modelled). */
  function Display(interval: nat): string {
    "Every " + Strings.NatToString(interval) + " seconds"
  }

  /** A schedule entry `set_recurrence` may pick for `interval`: a default name with that interval. */
  predicate Reusable(entry: (string, Schedule), interval: nat) {
    IsDefaultRecurrence(entry.0) && Abs(entry.1.interval) == interval
  }

  /** A custom name is never mistaken for a default one. */
  lemma {:induction false} CustomIsNotDefault(interval: nat)
    ensures !IsDefaultRecurrence(CustomRecurrence(interval))
  {
    var r := CustomRecurrence(interval);
    assert r[0] == 'e';
  }

  /**
   * `set_recurrence`: the first default schedule, in `wp_get_schedules()` order, whose
   * interval equals this one; when there is none, the custom name.
   */
  function Recurrence(interval: nat, schedules: Entries<Schedule>): (r: string)
    ensures (exists i | 0 <= i < |schedules| :: Reusable(schedules[i], interval)) ==>
              exists i | 0 <= i < |schedules| ::
                && Reusable(schedules[i], interval)
                && r == schedules[i].0
                && forall j | 0 <= j < i :: !Reusable(schedules[j], interval)
    ensures (forall i | 0 <= i < |schedules| :: !Reusable(schedules[i], interval)) ==>
              r == CustomRecurrence(interval)
    ensures IsDefaultRecurrence(r) || r == CustomRecurrence(interval)
  {
    if |schedules| == 0 then CustomRecurrence(interval)
    else if Reusable(schedules[0], interval) then schedules[0].0
    else
      var r := Recurrence(interval, schedules[1..]);
      assert forall i | 1 <= i < |schedules| :: schedules[i] == schedules[1..][i - 1];
      assert (exists i | 0 <= i < |schedules| :: Reusable(schedules[i], interval)) ==>
               exists i | 0 <= i < |schedules[1..]| :: Reusable(schedules[1..][i], interval);
      assert (exists i | 0 <= i < |schedules[1..]| ::
                && Reusable(schedules[1..][i], interval)
                && r == schedules[1..][i].0
                && forall j | 0 <= j < i :: !Reusable(schedules[1..][j], interval)) ==>
             (exists i | 0 <= i < |schedules| ::
                && Reusable(schedules[i], interval)
                && r == schedules[i].0
                && forall j | 0 <= j < i :: !Reusable(schedules[j], interval)) by {
        if exists i | 0 <= i < |schedules[1..]| ::
                && Reusable(schedules[1..][i], interval)
                && r == schedules[1..][i].0
                && forall j | 0 <= j < i :: !Reusable(schedules[1..][j], interval) {
          var i :| 0 <= i < |schedules[1..]|
                && Reusable(schedules[1..][i], interval)
                && r == schedules[1..][i].0
                && forall j | 0 <= j < i :: !Reusable(schedules[1..][j], interval);
          assert forall j | 1 <= j < i + 1 :: schedules[j] == schedules[1..][j - 1];
          assert Reusable(schedules[i + 1], interval) && r == schedules[i + 1].0;
        }
      }
      r
  }

  /** The constructor: the hook trimmed, the interval passed through `absint`, the recurrence chosen. */
  function Init(hook: string, interval: int, schedules: Entries<Schedule>): (c: Cron)
    ensures c.interval == Abs(interval)
    ensures c.hook == Strings.Trim(hook)
    ensures c.hook == [] || (!Strings.IsTrimChar(c.hook[0]) && !Strings.IsTrimChar(c.hook[|c.hook| - 1]))
    ensures |c.hook| <= |hook|
    ensures c.recurrence == Recurrence(Abs(interval), schedules)
  {
    Cron(Strings.Trim(hook), Abs(interval), Recurrence(Abs(interval), schedules))
  }

  /**
   * `add_schedule` (the `cron_schedules` filter): a default recurrence leaves the
   * dictionary alone; a custom one is set to this interval, every other entry unchanged.
   */
  function AddSchedule(c: Cron, schedules: Entries<Schedule>): (r: Entries<Schedule>)
    ensures IsDefaultRecurrence(c.recurrence) ==> r == schedules
    ensures !IsDefaultRecurrence(c.recurrence) ==>
              && Get(r, c.recurrence) == Some(Schedule(c.interval, Display(c.interval)))
              && forall k | k != c.recurrence :: Get(r, k) == Get(schedules, k)
  {
    if IsDefaultRecurrence(c.recurrence) then schedules
    else Put(schedules, c.recurrence, Schedule(c.interval, Display(c.interval)))
  }

  /**
   * `schedule_event`: when the hook has no pending event, schedule it now with the cron's
   * recurrence (WordPress refuses a recurrence it does not know); otherwise do nothing.
   */
  function ScheduleEvent(registry: Registry, c: Cron, schedules: Entries<Schedule>, now: int): (r: Registry)
    ensures c.hook in registry ==> r == registry
    ensures c.hook !in registry && Has(schedules, c.recurrence) ==> r == registry[c.hook := Event(now, c.recurrence)]
    ensures c.hook !in registry && !Has(schedules, c.recurrence) ==> r == registry
    ensures forall h | h != c.hook :: (h in r <==> h in registry) && (h in r ==> r[h] == registry[h])
  {
    if c.hook in registry then registry
    else if Has(schedules, c.recurrence) then registry[c.hook := Event(now, c.recurrence)]
    else registry
  }

  /** Scheduling again, at any later time, changes nothing. */
  lemma ScheduleEventIdempotent(registry: Registry, c: Cron, schedules: Entries<Schedule>, now: int, later: int)
    ensures var once := ScheduleEvent(registry, c, schedules, now);
            ScheduleEvent(once, c, schedules, later) == once
  {
  }

  /** `unschedule_event`: the hook's pending event is cleared and nothing else. */
  function Unschedule(registry: Registry, c: Cron): (r: Registry)
    ensures c.hook !in r
    ensures forall h | h != c.hook :: (h in r <==> h in registry) && (h in r ==> r[h] == registry[h])
  {
    registry - {c.hook}
  }

  /**
   * Construction, the schedules filter and `schedule_event` fit together: whatever
   * recurrence the constructor picks is known to the filtered dictionary, so the hook
   * always ends up scheduled.
   */
  lemma {:induction false} InitThenScheduleRegistersHook(registry: Registry, hook: string, interval: int,
                                                         schedules: Entries<Schedule>, now: int)
    ensures var c := Init(hook, interval, schedules);
            c.hook in ScheduleEvent(registry, c, AddSchedule(c, schedules), now)
  {
    var c := Init(hook, interval, schedules);
    if IsDefaultRecurrence(c.recurrence) {
      CustomIsNotDefault(c.interval);
      var i :| 0 <= i < |schedules| && Reusable(schedules[i], c.interval) && c.recurrence == schedules[i].0;
      assert Keys(schedules)[i] == c.recurrence;
    }
  }

  /** With WordPress's own schedules, a 24-hour interval reuses "daily". */
  lemma {:induction false} DailyIntervalReusesDaily(hook: string)
    ensures Init(hook, 86400, CoreSchedules).recurrence == "daily"
  {
    assert !Reusable(CoreSchedules[0], 86400) && !Reusable(CoreSchedules[1], 86400);
  }

  /** With WordPress's own schedules, a 5-minute interval gets the custom "every_300_seconds". */
  lemma {:induction false} FiveMinutesIsCustom(hook: string)
    ensures Init(hook, 300, CoreSchedules).recurrence == "every_300_seconds"
  {
    NoCoreScheduleIsFiveMinutes();
    RenderThreeHundred();
    assert CustomRecurrence(300) == "every_" + "300" + "_seconds";
  }

  lemma {:induction false} NoCoreScheduleIsFiveMinutes()
    ensures forall i | 0 <= i < |CoreSchedules| :: !Reusable(CoreSchedules[i], 300)
  {
    assert !Reusable(CoreSchedules[0], 300) && !Reusable(CoreSchedules[1], 300);
    assert !Reusable(CoreSchedules[2], 300) && !Reusable(CoreSchedules[3], 300);
  }

  lemma {:induction false} RenderThreeHundred()
    ensures Strings.NatToString(300) == "300"
  {
    assert Strings.NatToString(3) == "3";
    assert Strings.NatToString(30) == "30";
  }
}

=== FILE: fuse.dfy ===
/**
 * `Fuse`: the batch state machine for one post type. A daily parent cron fetches the
 * dataset and records a tracker {timestamp, total, pointer} under an option key; a
 * 5-minute child cron fetches the dataset again, hands the 10 records at the pointer to
 * the updater and advances the pointer, deleting the tracker once the pointer reaches
 * (or has passed) the total.
 */
module Fuse {
  import opened Wrappers
  import opened Php
  import opened FuseConfig
  import opened WordPress
  import opened Assoc
  import FuseUpdater
  import FuseCron
  import Strings

  /** Records per child run (the class constant, not the config's `batch_size`). */
  const BatchSize := 10
  /** The parent cron's interval: 24 hours. */
  const ParentInterval := 86400
  /** The child cron's interval: 5 minutes. */
  const ChildInterval := 300

  /** The option the tracker is stored under. */
  function OptionsKey(postType: string): string {
    "fuse_schedule_" + postType
  }

  function ParentHook(postType: string): string {
    "fuse_cron_" + postType + "_parent"
  }

  function ChildHook(postType: string): string {
    "fuse_cron_" + postType + "_child"
  }

  /** Distinct post types keep their trackers apart. */
  lemma {:induction false} OptionsKeyInjective(a: string, b: string)
    requires OptionsKey(a) == OptionsKey(b)
    ensures a == b
  {
    assert a == OptionsKey(a)[|"fuse_schedule_"|..];
    assert b == OptionsKey(b)[|"fuse_schedule_"|..];
  }

  /** A post type's parent and child crons never share a hook. */
  lemma {:induction false} HooksDistinct(postType: string)
    ensures ParentHook(postType) != ChildHook(postType)
  {
    assert |ParentHook(postType)| != |ChildHook(postType)|;
  }

  /** The batch tracker: when the parent ran, how many records the dataset had, where the next batch starts. */
  datatype Tracker = Tracker(timestamp: int, total: int, pointer: int)

  /** The options table, as far as trackers go. */
  type Options = map<string, Tracker>

  /** What `get_api_data` returned: nothing usable, or the decoded records. */
  datatype Fetch = Failed | Data(records: seq<Record>)

  /** `! $data` is false: the fetch produced a non-empty array. */
  predicate Usable(f: Fetch) {
    f.Data? && |f.records| > 0
  }

  /** `set_schedule_tracker`: a falsy timestamp is replaced by the current time. */
  function SetTracker(opts: Options, key: string, timestamp: int, total: int, pointer: int, now: int): (r: Options)
    ensures key in r && r[key].total == total && r[key].pointer == pointer
    ensures r[key].timestamp == if timestamp == 0 then now else timestamp
    ensures forall k | k != key :: (k in r <==> k in opts) && (k in r ==> r[k] == opts[k])
  {
    opts[key := Tracker(if timestamp == 0 then now else timestamp, total, pointer)]
  }

  /** `delete_schedule_tracker`. */
  function DeleteTracker(opts: Options, key: string): (r: Options)
    ensures key !in r
    ensures forall k | k != key :: (k in r <==> k in opts) && (k in r ==> r[k] == opts[k])
  {
    opts - {key}
  }

  /**
   * `update_schedule_tracker($pointer)`: no tracker, nothing happens (false); a pointer
   * exactly equal to the total deletes the tracker (false); any other pointer is stored (true).
   */
  function UpdateTracker(opts: Options, key: string, pointer: int): (r: (Options, bool))
    ensures key !in opts ==> r == (opts, false)
    ensures key in opts && opts[key].total == pointer ==> r == (DeleteTracker(opts, key), false)
    ensures key in opts && opts[key].total != pointer ==> r.1 && key in r.0 && r.0[key] == opts[key].(pointer := pointer)
    ensures forall k | k != key :: (k in r.0 <==> k in opts) && (k in r.0 ==> r.0[k] == opts[k])
  {
    if key !in opts then (opts, false)
    else if opts[key].total == pointer then (DeleteTracker(opts, key), false)
    else (opts[key := opts[key].(pointer := pointer)], true)
  }

  /** A batch is running: a tracker exists and its pointer is below its total. */
  predicate InProgress(opts: Options, key: string) {
    key in opts && opts[key].pointer < opts[key].total
  }

  /**
   * `parent_process`: while a batch is running it does nothing (and fetches nothing);
   * otherwise an unusable fetch raises "API failure" and a usable one starts a new batch
   * over all of its records.
   */
  function ParentProcess(opts: Options, key: string, fetch: Fetch, now: int): (r: Result<Options, Exception>)
    requires now != 0
    ensures InProgress(opts, key) ==> r == Ok(opts)
    ensures !InProgress(opts, key) && !Usable(fetch) ==> r == Err(ApiFailure)
    ensures !InProgress(opts, key) && Usable(fetch) ==>
              r.Ok? && key in r.value && r.value[key] == Tracker(now, |fetch.records|, 0)
    ensures r.Ok? ==> forall k | k != key :: (k in r.value <==> k in opts) && (k in r.value ==> r.value[k] == opts[k])
  {
    if InProgress(opts, key) then Ok(opts)
    else if !Usable(fetch) then Err(ApiFailure)
    else Ok(SetTracker(opts, key, now, |fetch.records|, 0, now))
  }

  /**
   * `array_slice($data, $offset, $length)` on a list: a negative offset counts from the
   * end (clamped at the start), and at most `length` elements are taken.
   */
  function ArraySlice<T>(d: seq<T>, offset: int, length: nat): (r: seq<T>)
    ensures |r| <= length
    ensures 0 <= offset <= |d| ==> r == d[offset..if offset + length <= |d| then offset + length else |d|]
    ensures offset > |d| ==> r == []
    ensures offset < 0 && |d| + offset >= 0 ==> r == d[|d| + offset..if offset + length <= 0 then |d| + offset + length else |d|]
    ensures offset < 0 && |d| + offset < 0 ==> r == d[..if length <= |d| then length else |d|]
  {
    var start := if offset < 0 then (if |d| + offset < 0 then 0 else |d| + offset) else offset;
    if start >= |d| then []
    else d[start..if start + length <= |d| then start + length else |d|]
  }

  /** The outcome of one cron run: the options, the updater's state, the exception if one escaped. */
  datatype Tick<S> = Tick(options: Options, state: S, error: Option<Exception>)

  /**
   * `child_process`, over any updater `apply` (for the plugin, `Fuse_Updater::update`): no
   * tracker, nothing; a pointer at or past the total deletes the tracker; otherwise the
   * dataset is fetched, the batch at the pointer applied and the pointer advanced by 10.
   * An exception — from the fetch or from the updater — leaves the tracker as it was, so
   * the same batch is tried again on the next run.
   */
  function ChildProcess<S>(apply: (S, seq<Record>) -> (S, Option<Exception>), opts: Options, key: string, state: S, fetch: Fetch): (r: Tick<S>)
    ensures key !in opts ==> r == Tick(opts, state, None)
    ensures key in opts && opts[key].pointer >= opts[key].total ==> r == Tick(DeleteTracker(opts, key), state, None)
    ensures InProgress(opts, key) && !Usable(fetch) ==> r == Tick(opts, state, Some(ApiFailure))
    ensures InProgress(opts, key) && Usable(fetch) ==>
              var out := apply(state, ArraySlice(fetch.records, opts[key].pointer, BatchSize));
              && r.state == out.0 && r.error == out.1
              && (out.1.Some? ==> r.options == opts)
              && (out.1.None? ==> r.options == UpdateTracker(opts, key, opts[key].pointer + BatchSize).0)
    ensures forall k | k != key :: (k in r.options <==> k in opts) && (k in r.options ==> r.options[k] == opts[k])
  {
    if key !in opts then Tick(opts, state, None)
    else
      var t := opts[key];
      if t.pointer >= t.total then Tick(DeleteTracker(opts, key), state, None)
      else if !Usable(fetch) then Tick(opts, state, Some(ApiFailure))
      else
        var out := apply(state, ArraySlice(fetch.records, t.pointer, BatchSize));
        if out.1.Some? then Tick(opts, out.0, out.1)
        else Tick(UpdateTracker(opts, key, t.pointer + BatchSize).0, out.0, None)
  }

  /* ---------- the tracker invariant ---------- */

  /**
   * The trackers the two processes can produce: a positive total, a pointer that is a
   * non-negative multiple of 10, below the total plus 10, and never equal to the total
   * (the last batch of a dataset whose size is not a multiple of 10 leaves the pointer
   * past the total; the next child run deletes it).
   */
  predicate Reachable(t: Tracker) {
    && t.total >= 1
    && 0 <= t.pointer < t.total + BatchSize
    && t.pointer % BatchSize == 0
    && t.pointer != t.total
  }

  predicate TrackerOk(opts: Options, key: string) {
    key in opts ==> Reachable(opts[key])
  }

  /** The parent run keeps the tracker reachable. */
  lemma ParentKeepsReachable(opts: Options, key: string, fetch: Fetch, now: int)
    requires now != 0 && TrackerOk(opts, key)
    ensures var r := ParentProcess(opts, key, fetch, now);
            r.Ok? ==> TrackerOk(r.value, key)
  {
  }

  /** The child run keeps the tracker reachable, whatever the updater does. */
  lemma ChildKeepsReachable<S>(apply: (S, seq<Record>) -> (S, Option<Exception>), opts: Options, key: string, state: S, fetch: Fetch)
    requires TrackerOk(opts, key)
    ensures TrackerOk(ChildProcess(apply, opts, key, state, fetch).options, key)
  {
  }

  /** While a batch is running the parent ignores whatever the API would return. */
  lemma ParentIgnoresFetchWhileRunning(opts: Options, key: string, f1: Fetch, f2: Fetch, now: int)
    requires now != 0 && InProgress(opts, key)
    ensures ParentProcess(opts, key, f1, now) == ParentProcess(opts, key, f2, now) == Ok(opts)
  {
  }

  /** A child run only ever moves the pointer forward by exactly one batch, or ends the batch. */
  lemma ChildAdvancesByOneBatch<S>(apply: (S, seq<Record>) -> (S, Option<Exception>), opts: Options, key: string, state: S, fetch: Fetch)
    requires key in opts
    ensures var r := ChildProcess(apply, opts, key, state, fetch).options;
            key !in r || r[key] == opts[key] || r[key] == opts[key].(pointer := opts[key].pointer + BatchSize)
  {
  }

  /* ---------- draining a dataset ---------- */

  /** The batches the child runs hand over for a dataset, from pointer `p` on. */
  function Chunks<T>(d: seq<T>, p: nat): (cs: seq<seq<T>>)
    ensures forall i | 0 <= i < |cs| :: 0 < |cs[i]| <= BatchSize
    decreases |d| - p
  {
    if p >= |d| then []
    else [ArraySlice(d, p, BatchSize)] + Chunks(d, p + BatchSize)
  }

  function Flatten<T>(cs: seq<seq<T>>): seq<T> {
    if |cs| == 0 then [] else cs[0] + Flatten(cs[1..])
  }

  /** The batches cover the rest of the dataset exactly once, in order. */
  lemma {:induction false} ChunksCover<T>(d: seq<T>, p: nat)
    requires p <= |d|
    ensures Flatten(Chunks(d, p)) == d[p..]
    decreases |d| - p
  {
    if p < |d| {
      var q := if p + BatchSize <= |d| then p + BatchSize else |d|;
      if p + BatchSize <= |d| {
        ChunksCover(d, p + BatchSize);
      } else {
        assert Chunks(d, p + BatchSize) == [];
      }
      assert Chunks(d, p)[1..] == Chunks(d, p + BatchSize);
      assert d[p..] == d[p..q] + d[q..];
    }
  }

  /** `n` child runs in a row against the same API response, stopping at the first exception. */
  function RunChild<S>(apply: (S, seq<Record>) -> (S, Option<Exception>), opts: Options, key: string, state: S, fetch: Fetch, n: nat): Tick<S> {
    if n == 0 then Tick(opts, state, None)
    else
      var t := ChildProcess(apply, opts, key, state, fetch);
      if t.error.Some? then t else RunChild(apply, t.options, key, t.state, fetch, n - 1)
  }

  /** An updater that only records the batches it is given. */
  function LogBatch(log: seq<seq<Record>>, batch: seq<Record>): (seq<seq<Record>>, Option<Exception>) {
    (log + [batch], None)
  }

  /**
   * Child runs a reachable tracker needs to finish: one per remaining batch, plus the
   * run that deletes a pointer left past the total.
   */
  function RunsToFinish(total: int, pointer: int): int {
    (total - pointer + BatchSize - 1) / BatchSize + (if total % BatchSize == 0 then 0 else 1)
  }

  /** How the run count behaves along a reachable tracker: one run left at the end, one fewer per batch before it. */
  lemma {:induction false} RunsToFinishSteps(total: int, p: int)
    requires Reachable(Tracker(0, total, p))
    ensures RunsToFinish(total, p) >= 1
    ensures p > total ==> RunsToFinish(total, p) == 1
    ensures p + BatchSize == total ==> RunsToFinish(total, p) == 1
    ensures p < total && p + BatchSize != total ==> RunsToFinish(total, p + BatchSize) == RunsToFinish(total, p) - 1
  {
    var q := total - p;
    var a := p / BatchSize;
    assert p == BatchSize * a;
    if p > total {
      QuotientOfBand(q + BatchSize - 1, 0);
      OvershootIsNotMultiple(total, p);
    } else if p + BatchSize == total {
      QuotientOfBand(q + BatchSize - 1, 1);
      QuotientOfBand(total, a + 1);
    } else {
      var m := (q + BatchSize - 1) / BatchSize;
      QuotientOfBand(q + BatchSize - 1, m);
      QuotientOfBand(q - 1, m - 1);
    }
  }

  /** A multiple of the batch size less than one batch above `total` is not a multiple of it apart from `total`. */
  lemma {:induction false} OvershootIsNotMultiple(total: int, p: int)
    requires p % BatchSize == 0 && total < p < total + BatchSize
    ensures total % BatchSize != 0
  {
    var a := p / BatchSize;
    var b := total / BatchSize;
    assert p == BatchSize * a;
    assert total == BatchSize * b + total % BatchSize;
  }

  /** Integer division by the batch size: `x` lies in band `d` exactly when its quotient is `d`. */
  lemma QuotientOfBand(x: int, d: int)
    requires BatchSize * d <= x < BatchSize * d + BatchSize
    ensures x / BatchSize == d && x % BatchSize == x - BatchSize * d
  {
  }

  /** A child run over a reachable tracker with records left logs the batch at the pointer and advances it. */
  lemma LogStep(opts: Options, key: string, log: seq<seq<Record>>, d: seq<Record>)
    requires key in opts && Reachable(opts[key]) && opts[key].total == |d| && opts[key].pointer < |d|
    ensures var p := opts[key].pointer;
            ChildProcess(LogBatch, opts, key, log, Data(d))
            == Tick(UpdateTracker(opts, key, p + BatchSize).0, log + [ArraySlice(d, p, BatchSize)], None)
  {
  }

  /** A run that raised nothing is followed by the remaining runs from where it left off. */
  lemma RunChildStep<S>(apply: (S, seq<Record>) -> (S, Option<Exception>), opts: Options, key: string, state: S, fetch: Fetch, n: nat)
    requires n >= 1 && ChildProcess(apply, opts, key, state, fetch).error.None?
    ensures var t := ChildProcess(apply, opts, key, state, fetch);
            RunChild(apply, opts, key, state, fetch, n) == RunChild(apply, t.options, key, t.state, fetch, n - 1)
  {
  }

  /** The last run: a pointer past the total, or one batch short of it exactly, takes one child run to finish. */
  lemma {:induction false} DrainLastRun(opts: Options, key: string, log: seq<seq<Record>>, d: seq<Record>)
    requires key in opts && Reachable(opts[key]) && opts[key].total == |d|
    requires opts[key].pointer > |d| || opts[key].pointer + BatchSize == |d|
    ensures RunChild(LogBatch, opts, key, log, Data(d), 1)
            == Tick(DeleteTracker(opts, key), log + Chunks(d, opts[key].pointer), None)
  {
    var p := opts[key].pointer;
    var t := ChildProcess(LogBatch, opts, key, log, Data(d));
    RunChildStep(LogBatch, opts, key, log, Data(d), 1);
    assert RunChild(LogBatch, t.options, key, t.state, Data(d), 0) == t;
    if p >= |d| {
      assert Chunks(d, p) == [];
      assert log + Chunks(d, p) == log;
    } else {
      LogStep(opts, key, log, d);
      assert Chunks(d, p + BatchSize) == [];
      assert Chunks(d, p) == [ArraySlice(d, p, BatchSize)];
      assert UpdateTracker(opts, key, p + BatchSize).0 == DeleteTracker(opts, key);
    }
  }

  /** A run in the middle of the dataset: the batch at the pointer is logged and the rest starts one batch later. */
  lemma {:induction false} DrainStep(opts: Options, key: string, log: seq<seq<Record>>, d: seq<Record>, n: nat)
    requires key in opts && Reachable(opts[key]) && opts[key].total == |d|
    requires opts[key].pointer < |d| && opts[key].pointer + BatchSize != |d| && n >= 1
    ensures var p := opts[key].pointer;
            var batch := ArraySlice(d, p, BatchSize);
            var opts1 := opts[key := opts[key].(pointer := p + BatchSize)];
            && RunChild(LogBatch, opts, key, log, Data(d), n) == RunChild(LogBatch, opts1, key, log + [batch], Data(d), n - 1)
            && DeleteTracker(opts1, key) == DeleteTracker(opts, key)
            && log + [batch] + Chunks(d, p + BatchSize) == log + Chunks(d, p)
  {
    var p := opts[key].pointer;
    var opts1 := opts[key := opts[key].(pointer := p + BatchSize)];
    LogStep(opts, key, log, d);
    assert UpdateTracker(opts, key, p + BatchSize).0 == opts1;
    RunChildStep(LogBatch, opts, key, log, Data(d), n);
    assert DeleteTracker(opts1, key) == DeleteTracker(opts, key);
    assert Chunks(d, p) == [ArraySlice(d, p, BatchSize)] + Chunks(d, p + BatchSize);
  }

  /**
   * Against an unchanging API response of `total` records, the child runs hand the
   * updater exactly the remaining batches, in order, and then delete the tracker.
   */
  lemma {:induction false} DrainHandsOverEveryBatch(opts: Options, key: string, log: seq<seq<Record>>, d: seq<Record>)
    requires key in opts && Reachable(opts[key]) && opts[key].total == |d|
    ensures var p := opts[key].pointer;
            RunsToFinish(|d|, p) >= 1
            && RunChild(LogBatch, opts, key, log, Data(d), RunsToFinish(|d|, p))
               == Tick(DeleteTracker(opts, key), log + Chunks(d, p), None)
    decreases |d| - opts[key].pointer + BatchSize
  {
    var t := opts[key];
    var p := t.pointer;
    var n := RunsToFinish(|d|, p);
    RunsToFinishSteps(|d|, p);
    if p > |d| || p + BatchSize == |d| {
      DrainLastRun(opts, key, log, d);
    } else {
      var opts1 := opts[key := t.(pointer := p + BatchSize)];
      var batch := ArraySlice(d, p, BatchSize);
      DrainStep(opts, key, log, d, n);
      NextReachable(t);
      assert RunsToFinish(|d|, p + BatchSize) == n - 1;
      DrainHandsOverEveryBatch(opts1, key, log + [batch], d);
      assert RunChild(LogBatch, opts1, key, log + [batch], Data(d), n - 1)
             == Tick(DeleteTracker(opts1, key), log + [batch] + Chunks(d, p + BatchSize), None);
    }
  }

  /** A tracker that is neither at nor one batch short of its total stays reachable one batch on. */
  lemma NextReachable(t: Tracker)
    requires Reachable(t) && t.pointer < t.total && t.pointer + BatchSize != t.total
    ensures Reachable(t.(pointer := t.pointer + BatchSize))
  {
  }

  /**
   * The whole cycle for a 23-record dataset: the parent starts at 0, the child runs move
   * the pointer to 10, 20 and then 30 — past the total, since 30 is not 23 — and the
   * fourth run deletes the tracker.
   */
  lemma TwentyThreeRecordTrace(d: seq<Record>, now: int)
    requires |d| == 23 && now != 0
    ensures var key := OptionsKey("post");
            var o0 := ParentProcess(map[], key, Data(d), now).value;
            var t1 := ChildProcess(LogBatch, o0, key, [], Data(d));
            var t2 := ChildProcess(LogBatch, t1.options, key, t1.state, Data(d));
            var t3 := ChildProcess(LogBatch, t2.options, key, t2.state, Data(d));
            var t4 := ChildProcess(LogBatch, t3.options, key, t3.state, Data(d));
            && o0[key] == Tracker(now, 23, 0)
            && t1.options[key].pointer == 10
            && t2.options[key].pointer == 20
            && t3.options[key].pointer == 30
            && key !in t4.options
            && t4.state == [d[0..10], d[10..20], d[20..23]]
  {
  }

  /* ---------- the plugin's instance ---------- */

  /** A child run with `Fuse_Updater::update` as the updater. */
  function ChildTick(env: Env, cfg: Config, opts: Options, s: Store, fetch: Fetch): (r: Tick<Store>)
    ensures Valid(s) ==> Valid(r.state)
    ensures !InProgress(opts, OptionsKey(cfg.postType)) ==> r.state == s
  {
    var apply := (st: Store, batch: seq<Record>) => FuseUpdater.Update(env, cfg, st, batch);
    ChildProcess(apply, opts, OptionsKey(cfg.postType), s, fetch)
  }

  /**
   * A child run that raised nothing left every record of its batch with a post carrying
   * that record's external id, and kept external ids unique.
   */
  lemma {:induction false} ChildTickSyncsBatch(env: Env, cfg: Config, opts: Options, s: Store, fetch: Fetch)
    requires Valid(s) && !Has(cfg.postarrMap, "post_type") && FuseUpdater.UniqueExternalIds(s, cfg.postType)
    requires InProgress(opts, OptionsKey(cfg.postType)) && Usable(fetch)
    requires FuseUpdater.IdsQueried(env, cfg, ArraySlice(fetch.records, opts[OptionsKey(cfg.postType)].pointer, BatchSize))
    requires ChildTick(env, cfg, opts, s, fetch).error.None?
    ensures var batch := ArraySlice(fetch.records, opts[OptionsKey(cfg.postType)].pointer, BatchSize);
            var r := ChildTick(env, cfg, opts, s, fetch);
            && FuseUpdater.UniqueExternalIds(r.state, cfg.postType)
            && forall j | 0 <= j < |batch| ::
                 PostsWith(r.state, cfg.postType, FuseUpdater.MetaIdentifierKey, FuseUpdater.RecordId(env, cfg, batch, j)) != {}
  {
    var batch := ArraySlice(fetch.records, opts[OptionsKey(cfg.postType)].pointer, BatchSize);
    FuseUpdater.UpdateFromSyncsEveryRecord(env, cfg, s, batch, 0);
    FuseUpdater.UpdateKeepsUnique(env, cfg, s, batch);
  }

  /* ---------- cron registration ---------- */

  /** `register_parent_schedule`: the parent hook, every 24 hours. */
  function RegisterParent(postType: string, schedules: Entries<FuseCron.Schedule>): (c: FuseCron.Cron)
    ensures c.hook == ParentHook(postType)
    ensures c.interval == ParentInterval
    ensures c.recurrence == FuseCron.Recurrence(ParentInterval, schedules)
  {
    Strings.TrimOfClean(ParentHook(postType));
    FuseCron.Init(ParentHook(postType), ParentInterval, schedules)
  }

  /** `register_child_schedule`: the child hook, every 5 minutes. */
  function RegisterChild(postType: string, schedules: Entries<FuseCron.Schedule>): (c: FuseCron.Cron)
    ensures c.hook == ChildHook(postType)
    ensures c.interval == ChildInterval
    ensures c.recurrence == FuseCron.Recurrence(ChildInterval, schedules)
  {
    Strings.TrimOfClean(ChildHook(postType));
    FuseCron.Init(ChildHook(postType), ChildInterval, schedules)
  }

  /** With WordPress's own schedules the parent runs "daily" and the child on its own 300-second schedule. */
  lemma {:induction false} RegisteredRecurrences(postType: string)
    ensures RegisterParent(postType, FuseCron.CoreSchedules).recurrence == "daily"
    ensures RegisterChild(postType, FuseCron.CoreSchedules).recurrence == "every_300_seconds"
  {
    FuseCron.DailyIntervalReusesDaily(ParentHook(postType));
    FuseCron.FiveMinutesIsCustom(ChildHook(postType));
  }

  /** `remove_child_schedule`: only a registered child cron is unscheduled. */
  function RemoveChildSchedule(registry: FuseCron.Registry, child: Option<FuseCron.Cron>): (r: FuseCron.Registry)
    ensures child.None? ==> r == registry
    ensures child.Some? ==> child.value.hook !in r
    ensures forall h | child.None? || h != child.value.hook :: (h in r <==> h in registry) && (h in r ==> r[h] == registry[h])
  {
    match child
    case None => registry
    case Some(c) => FuseCron.Unschedule(registry, c)
  }
}

=== FILE: php.dfy ===
/**
 * The PHP values the plugin handles: decoded JSON (objects, lists, scalars), PHP's
 * truthiness, the `(int)` cast and WordPress's `absint`, and the exceptions the sync
 * engine throws.
 */
module Php {
  import Strings

  /**
   * A value as `json_decode` produces it (objects are `stdClass` property maps) or as the
   * field mapping produces it. Floats are not modelled.
   */
  datatype Value =
    | Null
    | Bool(b: bool)
    | Int(i: int)
    | Str(s: string)
    | List(items: seq<Value>)
    | Obj(props: map<string, Value>)

  /** One element of the fetched dataset: the properties of a decoded JSON object. */
  type Record = map<string, Value>

  /** PHP truthiness: `null`, `false`, `0`, `""`, `"0"` and the empty array are falsy; objects never are. */
  predicate Truthy(v: Value) {
    match v
    case Null => false
    case Bool(b) => b
    case Int(i) => i != 0
    case Str(s) => s != "" && s != "0"
    case List(items) => |items| > 0
    case Obj(_) => true
  }

  /** PHP's `(int)` cast. */
  function IntVal(v: Value): int {
    match v
    case Null => 0
    case Bool(b) => if b then 1 else 0
    case Int(i) => i
    case Str(s) => Strings.LeadingInt(s)
    case List(items) => if |items| == 0 then 0 else 1
    case Obj(_) => 1
  }

  /**
   * The `(int)` cast reads a non-negative integer the same whether it comes back as a number
   * or as the decimal string the database stores meta as: comparing `fuse_id`s as stored
   * values loses nothing for the ids a 'number' rule produces.
   */
  lemma {:induction false} IntValOfStoredNat(n: nat)
    ensures IntVal(Str(Strings.NatToString(n))) == IntVal(Int(n))
  {
    Strings.LeadingIntOfNatToString(n);
  }

  /** WordPress's `absint`: the magnitude of the `(int)` cast, never negative. */
  function AbsInt(v: Value): (r: nat)
    ensures r == IntVal(v) || r == -IntVal(v)
    ensures IntVal(v) >= 0 ==> r == IntVal(v)
  {
    var i := IntVal(v);
    if i < 0 then -i else i
  }

  /** The exceptions the sync engine throws (all with code 500 in the plugin). */
  datatype Exception =
    | FieldError(path: string)   // 'Error on field %s': a nested path segment is missing
    | NoIdError(index: int)      // 'Error on post %s': the mapped arguments have no ID
    | InsertError                // 'Error on post 0': the post write was rejected
    | ApiFailure                 // 'API failure': the fetch returned nothing usable
    | ConfigError                // 'No ID key found in postarr_map' (only thrown by the corrected cleanup)
    | PhpError                   // an uncaught PHP Error: `$value[$p]` on a decoded object
}

=== FILE: strings.dfy ===
/**
 * The string primitives the plugin relies on: `explode`/`implode` on a one-character
 * separator, PHP's `trim`, decimal rendering of a non-negative integer (string
 * concatenation of an int) and the leading-integer reading PHP's `(int)` cast applies
 * to a string.
 */
module Strings {

  /* ---------- explode / implode ---------- */

  /** Position of the first occurrence of `c` in `s`. */
  function IndexOf(s: string, c: char): (k: nat)
    requires c in s
    ensures k < |s| && s[k] == c && c !in s[..k]
  {
    if s[0] == c then 0
    else
      var k' := IndexOf(s[1..], c);
      assert s[..k' + 1] == [s[0]] + s[1..][..k'];
      k' + 1
  }

  /** `implode(sep, parts)`: the parts glued together with the separator between them. */
  function Join(parts: seq<string>, sep: char): string
    requires |parts| >= 1
  {
    if |parts| == 1 then parts[0] else parts[0] + [sep] + Join(parts[1..], sep)
  }

  /**
   * `explode(sep, s)`: the maximal separator-free pieces of `s`, in order. There is always
   * at least one piece (the empty string explodes to `[""]`), and gluing the pieces back
   * together gives `s` again.
   */
  function Split(s: string, sep: char): (parts: seq<string>)
    ensures |parts| >= 1
    ensures forall i | 0 <= i < |parts| :: sep !in parts[i]
    ensures Join(parts, sep) == s
    decreases |s|
  {
    if sep !in s then [s]
    else
      var k := IndexOf(s, sep);
      var rest := Split(s[k + 1..], sep);
      var parts := [s[..k]] + rest;
      assert parts[1..] == rest;
      assert s == s[..k] + [sep] + s[k + 1..];
      parts
  }

  /** The other half of the round trip: exploding an implosion of separator-free parts gives the parts back. */
  lemma {:induction false} SplitJoin(parts: seq<string>, sep: char)
    requires |parts| >= 1
    requires forall i | 0 <= i < |parts| :: sep !in parts[i]
    ensures Split(Join(parts, sep), sep) == parts
    decreases |parts|
  {
    if |parts| > 1 {
      var head := parts[0];
      var tail := Join(parts[1..], sep);
      var s := Join(parts, sep);
      assert s == head + [sep] + tail;
      assert s[|head|] == sep;
      var k := IndexOf(s, sep);
      assert s[..k] == head;
      assert s[k + 1..] == tail;
      SplitJoin(parts[1..], sep);
      assert Split(s, sep) == [head] + parts[1..];
    }
  }

  /** A string without the separator explodes to itself alone. */
  lemma SplitOfPlain(s: string, sep: char)
    requires sep !in s
    ensures Split(s, sep) == [s]
  {
  }

  /* ---------- trim ---------- */

  /** The characters PHP's `trim` strips by default: space, tab, LF, CR, NUL and vertical tab. */
  predicate IsTrimChar(c: char) {
    c == ' ' || c == '\t' || c == '\n' || c == '\r' || c == '\0' || c as int == 0x0B
  }

  /** The index of the first character at or after `i` that is not trimmable (`|s|` when there is none). */
  function SkipFrom(s: string, i: nat): (r: nat)
    requires i <= |s|
    ensures i <= r <= |s|
    ensures forall k | i <= k < r :: IsTrimChar(s[k])
    ensures r == |s| || !IsTrimChar(s[r])
    decreases |s| - i
  {
    if i < |s| && IsTrimChar(s[i]) then SkipFrom(s, i + 1) else i
  }

  /** The index just after the last character before `j` that is not trimmable (0 when there is none). */
  function SkipBack(s: string, j: nat): (r: nat)
    requires j <= |s|
    ensures r <= j
    ensures forall k | r <= k < j :: IsTrimChar(s[k])
    ensures r == 0 || !IsTrimChar(s[r - 1])
  {
    if j > 0 && IsTrimChar(s[j - 1]) then SkipBack(s, j - 1) else j
  }

  /** `ltrim`: `s` without its leading trimmable characters. */
  function TrimLeft(s: string): (r: string)
    ensures r == [] || !IsTrimChar(r[0])
  {
    s[SkipFrom(s, 0)..]
  }

  /** `rtrim`: `s` without its trailing trimmable characters. */
  function TrimRight(s: string): (r: string)
    ensures r == [] || !IsTrimChar(r[|r| - 1])
  {
    s[..SkipBack(s, |s|)]
  }

  /** `trim`: `s` with every leading and trailing trimmable character removed, and nothing else. */
  function Trim(s: string): (r: string)
    ensures r == [] || (!IsTrimChar(r[0]) && !IsTrimChar(r[|r| - 1]))
    ensures |r| <= |s|
  {
    var l := TrimLeft(s);
    var r := TrimRight(l);
    assert r != [] ==> r[0] == l[0];
    r
  }

  /**
   * Only the ends are touched: `s` is `l` trimmable characters, then `Trim(s)`, then
   * trimmable characters up to its end.
   */
  lemma {:induction false} TrimOnlyStripsEnds(s: string)
    ensures var l := SkipFrom(s, 0);
            && l + |Trim(s)| <= |s|
            && s[l..l + |Trim(s)|] == Trim(s)
            && (forall i | 0 <= i < l :: IsTrimChar(s[i]))
            && (forall i | l + |Trim(s)| <= i < |s| :: IsTrimChar(s[i]))
  {
    var l := SkipFrom(s, 0);
    var t := s[l..];
    var e := SkipBack(t, |t|);
    assert Trim(s) == t[..e];
    forall i | l + e <= i < |s|
      ensures IsTrimChar(s[i])
    {
      assert s[i] == t[i - l];
    }
  }

  /** A string without trimmable ends is left alone. */
  lemma {:induction false} TrimOfClean(s: string)
    requires s == [] || (!IsTrimChar(s[0]) && !IsTrimChar(s[|s| - 1]))
    ensures Trim(s) == s
  {
    assert TrimLeft(s) == s;
    assert TrimRight(s) == s;
  }

  /** Trimming twice is trimming once. */
  lemma {:induction false} TrimIdempotent(s: string)
    ensures Trim(Trim(s)) == Trim(s)
  {
    TrimOfClean(Trim(s));
  }

  /* ---------- decimal integers ---------- */

  predicate IsDigit(c: char) {
    '0' <= c <= '9'
  }

  predicate AllDigits(s: string) {
    forall i | 0 <= i < |s| :: IsDigit(s[i])
  }

  function DigitChar(d: nat): (c: char)
    requires d < 10
  {
    ('0' as int + d) as char
  }

  function DigitValue(c: char): nat
    requires IsDigit(c)
  {
    c as int - '0' as int
  }

  /** The decimal rendering PHP produces when an integer is concatenated to a string. */
  function NatToString(n: nat): (r: string)
    ensures |r| >= 1 && AllDigits(r)
    ensures r[0] != '0' || n == 0
    decreases n
  {
    if n < 10 then [DigitChar(n)] else NatToString(n / 10) + [DigitChar(n % 10)]
  }

  /** The number a string of decimal digits denotes. */
  function DigitsValue(ds: string): nat
    requires AllDigits(ds)
  {
    if |ds| == 0 then 0 else DigitsValue(ds[..|ds| - 1]) * 10 + DigitValue(ds[|ds| - 1])
  }

  /** Reading back a rendered number gives the number. */
  lemma {:induction false} DigitsValueOfNatToString(n: nat)
    ensures DigitsValue(NatToString(n)) == n
    decreases n
  {
    if n >= 10 {
      var r := NatToString(n);
      DigitsValueOfNatToString(n / 10);
      assert r[..|r| - 1] == NatToString(n / 10);
    }
  }

  /** Distinct numbers render differently. */
  lemma {:induction false} NatToStringInjective(m: nat, n: nat)
    ensures NatToString(m) == NatToString(n) ==> m == n
  {
    DigitsValueOfNatToString(m);
    DigitsValueOfNatToString(n);
  }

  /** The whitespace PHP skips before the digits of an integer string. */
  predicate IsIntSpace(c: char) {
    c == ' ' || c == '\t' || c == '\n' || c == '\r' || c as int == 0x0B || c as int == 0x0C
  }

  function SkipIntSpace(s: string): (r: string)
    ensures |r| <= |s|
  {
    if |s| > 0 && IsIntSpace(s[0]) then SkipIntSpace(s[1..]) else s
  }

  /** The longest all-digit prefix of `s`. */
  function DigitPrefix(s: string): (r: string)
    ensures |r| <= |s| && r == s[..|r|] && AllDigits(r)
  {
    if |s| > 0 && IsDigit(s[0]) then
      var rest := DigitPrefix(s[1..]);
      assert [s[0]] + rest == s[..|rest| + 1];
      [s[0]] + rest
    else []
  }

  /**
   * The value PHP's `(int)` cast gives a string: optional leading whitespace, an optional
   * sign, then the leading run of decimal digits; anything after it is ignored and a
   * string with no leading digits is 0.
   */
  function LeadingInt(s: string): int {
    var t := SkipIntSpace(s);
    if |t| > 0 && (t[0] == '-' || t[0] == '+') then
      var m: int := DigitsValue(DigitPrefix(t[1..]));
      if t[0] == '-' then -m else m
    else DigitsValue(DigitPrefix(t))
  }

  /** Casting a rendered number back to an integer gives the number. */
  lemma {:induction false} LeadingIntOfNatToString(n: nat)
    ensures LeadingInt(NatToString(n)) == n
  {
    var s := NatToString(n);
    assert SkipIntSpace(s) == s;
    DigitPrefixOfDigits(s);
    DigitsValueOfNatToString(n);
  }

  lemma {:induction false} DigitPrefixOfDigits(s: string)
    requires AllDigits(s)
    ensures DigitPrefix(s) == s
  {
    if |s| > 0 {
      DigitPrefixOfDigits(s[1..]);
      assert [s[0]] + s[1..] == s;
    }
  }
}

=== FILE: updater.dfy ===
/**
 * `Fuse_Updater`: turns fetched API records into posts. Field values come from the
 * mapping rules (manual literal, or a sanitised value found by a dot path); each record
 * is upserted by its external id, kept in the `fuse_id` post meta; taxonomy terms are
 * found or created by slug and replace the post's previous terms; `cleanup` deletes the
 * posts whose external id is no longer in the dataset.
 */
module FuseUpdater {
  import opened Wrappers
  import opened Php
  import opened Assoc
  import opened FuseConfig
  import opened WordPress
  import Strings

  /** The post meta key holding a post's external id. */
  const MetaIdentifierKey := "fuse_id"

  /* ---------- field values ---------- */

  /**
   * `sanitize($value, $type)`: 'number' gives `absint`, 'date' the text-sanitised
   * reformatted date, 'string' and every other type the text-sanitised value.
   */
  function Sanitize(env: Env, v: Value, dataType: Option<string>): (r: Value)
    ensures dataType == Some("number") ==> r.Int? && r.i >= 0 && (r.i == IntVal(v) || r.i == -IntVal(v))
    ensures dataType == Some("number") && IntVal(v) >= 0 ==> r == Int(IntVal(v))
    ensures dataType == Some("date") ==> r == Str(env.sanitizeTextField(env.formatDate(v)))
    ensures dataType != Some("number") && dataType != Some("date") ==> r == Str(env.sanitizeTextField(v))
  {
    if dataType == Some("string") then Str(env.sanitizeTextField(v))
    else if dataType == Some("date") then Str(env.sanitizeTextField(env.formatDate(v)))
    else if dataType == Some("number") then Int(AbsInt(v))
    else Str(env.sanitizeTextField(v))
  }

  /** A 'number' value is already its own `absint`: sanitising it again changes nothing. */
  lemma SanitizeNumberIdempotent(env: Env, v: Value)
    ensures var n := Sanitize(env, v, Some("number"));
            Sanitize(env, n, Some("number")) == n
  {
  }

  /** Follow `segs` through nested objects; nothing when a segment is not a property of the current object. */
  function Descend(v: Value, segs: seq<string>): Option<Value> {
    if |segs| == 0 then Some(v)
    else if v.Obj? && segs[0] in v.props then Descend(v.props[segs[0]], segs[1..])
    else None
  }

  /** Descending along `a + b` is descending along `a`, then along `b` from where `a` led. */
  lemma {:induction false} DescendAppend(v: Value, a: seq<string>, b: seq<string>)
    ensures Descend(v, a + b) == match Descend(v, a) { case None => None case Some(w) => Descend(w, b) }
    decreases |a|
  {
    if |a| == 0 {
      assert a + b == b;
    } else {
      assert (a + b)[0] == a[0] && (a + b)[1..] == a[1..] + b;
      if v.Obj? && a[0] in v.props {
        DescendAppend(v.props[a[0]], a[1..], b);
      }
    }
  }

  /** `! $exploded[0] || ! property_exists(...)`: the first segment is falsy ("" or "0") or not a property. */
  predicate FirstSegmentUnusable(seg: string, obj: Record) {
    seg == "" || seg == "0" || seg !in obj
  }

  /**
   * `walk_object($prop, $obj)`: null when the first path segment is falsy or missing; the
   * property itself for a one-segment path; for a longer path the value reached through
   * every later segment, and an exception naming the path when one is missing. The nested
   * case is the evidently intended descent through object properties; `WalkObjectAsWritten`
   * is the loop as the plugin writes it.
   */
  function WalkObject(path: string, obj: Record): (r: Result<Value, Exception>)
    ensures FirstSegmentUnusable(Strings.Split(path, '.')[0], obj) ==> r == Ok(Null)
    ensures '.' !in path && !FirstSegmentUnusable(path, obj) ==> r == Ok(obj[path])
    ensures r.Err? ==> r.error == FieldError(path) && |Strings.Split(path, '.')| > 1
  {
    var segs := Strings.Split(path, '.');
    if FirstSegmentUnusable(segs[0], obj) then Ok(Null)
    else if |segs| == 1 then Ok(obj[segs[0]])
    else
      match Descend(obj[segs[0]], segs[1..])
      case Some(v) => Ok(v)
      case None => Err(FieldError(path))
  }

  /** A nested path whose every segment is present resolves to the value at its end. */
  lemma WalkObjectNestedPresent(path: string, obj: Record, w: Value)
    requires var segs := Strings.Split(path, '.');
             |segs| > 1 && !FirstSegmentUnusable(segs[0], obj) && Descend(obj[segs[0]], segs[1..]) == Some(w)
    ensures WalkObject(path, obj) == Ok(w)
  {
  }

  /**
   * A nested path throws as soon as one later segment is missing: if the first `i`
   * segments lead to `w` and segment `i` is not a property of `w`, the walk fails.
   */
  lemma {:induction false} WalkObjectMissingSegmentThrows(path: string, obj: Record, i: nat, w: Value)
    requires var segs := Strings.Split(path, '.');
             && 1 <= i < |segs|
             && !FirstSegmentUnusable(segs[0], obj)
             && Descend(obj[segs[0]], segs[1..i]) == Some(w)
             && !(w.Obj? && segs[i] in w.props)
    ensures WalkObject(path, obj) == Err(FieldError(path))
  {
    var segs := Strings.Split(path, '.');
    assert segs[1..] == segs[1..i] + segs[i..];
    DescendAppend(obj[segs[0]], segs[1..i], segs[i..]);
    assert segs[i..][0] == segs[i];
  }

  /**
   * `walk_object` for a nested path exactly as written: a later segment that is a property
   * of the current value is then read with `$value[$p]`, which on a decoded JSON object (a
   * `stdClass`) is a fatal PHP error. So the loop dies or throws at its first step, and a
   * nested path never yields a value. On every other path it agrees with `WalkObject`.
   */
  function WalkObjectAsWritten(path: string, obj: Record): (r: Result<Value, Exception>)
    ensures var segs := Strings.Split(path, '.');
            |segs| > 1 && !FirstSegmentUnusable(segs[0], obj) ==> r.Err?
    ensures var segs := Strings.Split(path, '.');
            |segs| == 1 || FirstSegmentUnusable(segs[0], obj) ==> r == WalkObject(path, obj)
  {
    var segs := Strings.Split(path, '.');
    if FirstSegmentUnusable(segs[0], obj) then Ok(Null)
    else if |segs| == 1 then Ok(obj[segs[0]])
    else
      var v := obj[segs[0]];
      if v.Obj? && segs[1] in v.props then Err(PhpError) else Err(FieldError(path))
  }

  /** The concrete case: "meta.count" on `{meta: {count: "7"}}` dies as written, while the intended walk finds "7". */
  lemma {:induction false} NestedPathDiesAsWritten()
    ensures var rec := map["meta" := Obj(map["count" := Str("7")])];
            && WalkObjectAsWritten("meta.count", rec) == Err(PhpError)
            && WalkObject("meta.count", rec) == Ok(Str("7"))
  {
    var rec := map["meta" := Obj(map["count" := Str("7")])];
    MetaCountSegments();
    assert Descend(rec["meta"], ["count"]) == Some(Str("7"));
    WalkObjectNestedPresent("meta.count", rec, Str("7"));
  }

  /** `array_key_exists('manual', $field) && $field['manual']`. */
  predicate IsManual(rule: FieldRule) {
    rule.manual.Some? && Truthy(rule.manual.value)
  }

  /**
   * `get_field_value($field, $post)`: a manual rule yields its `manual_value` (null when
   * absent) without looking at the record; any other rule walks its `api_field_key`
   * (absent reads as "") and sanitises the result by `data_type`.
   */
  function GetFieldValue(env: Env, rule: FieldRule, rec: Record): (r: Result<Value, Exception>)
    ensures IsManual(rule) ==> r == Ok(rule.manualValue.GetOr(Null))
    ensures !IsManual(rule) && rule.dataType == Some("number") && r.Ok? ==> r.value.Int? && r.value.i >= 0
    ensures !IsManual(rule) && rule.dataType != Some("number") && r.Ok? ==> r.value.Str?
    ensures !IsManual(rule) ==> (r.Ok? <==> WalkObject(rule.apiFieldKey.GetOr(""), rec).Ok?)
    ensures !IsManual(rule) && r.Ok? ==> r.value == Sanitize(env, WalkObject(rule.apiFieldKey.GetOr(""), rec).value, rule.dataType)
    ensures r.Err? ==> r.error == FieldError(rule.apiFieldKey.GetOr(""))
  {
    if IsManual(rule) then Ok(rule.manualValue.GetOr(Null))
    else
      match WalkObject(rule.apiFieldKey.GetOr(""), rec)
      case Err(e) => Err(e)
      case Ok(v) => Ok(Sanitize(env, v, rule.dataType))
  }

  /**
   * A non-manual rule on a plain property name (no '.', not falsy) present in the record
   * gives that property sanitised by the rule's type; under 'number' a non-negative
   * integer property comes back as it is.
   */
  lemma {:induction false} GetFieldValueOfProperty(env: Env, rule: FieldRule, rec: Record, k: string)
    requires !IsManual(rule) && rule.apiFieldKey == Some(k)
    requires '.' !in k && k != "" && k != "0" && k in rec
    ensures GetFieldValue(env, rule, rec) == Ok(Sanitize(env, rec[k], rule.dataType))
    ensures rule.dataType == Some("number") && rec[k].Int? && rec[k].i >= 0 ==> GetFieldValue(env, rule, rec) == Ok(rec[k])
  {
    Strings.SplitOfPlain(k, '.');
  }

  /** A manual rule gives the same value whatever the record. */
  lemma ManualIgnoresRecord(env: Env, rule: FieldRule, rec1: Record, rec2: Record)
    requires IsManual(rule)
    ensures GetFieldValue(env, rule, rec1) == GetFieldValue(env, rule, rec2)
  {
  }

  /** The 'number' rule on path "meta.count" reads `{meta: {count: "7"}}` as the integer 7. */
  lemma {:induction false} NestedNumberExample(env: Env)
    ensures GetFieldValue(env, FieldRule(None, Some("number"), Some("meta.count"), None, None),
                          map["meta" := Obj(map["count" := Str("7")])]) == Ok(Int(7))
  {
    var rec := map["meta" := Obj(map["count" := Str("7")])];
    MetaCountSegments();
    assert Descend(rec["meta"], ["count"]) == Some(Str("7"));
    WalkObjectNestedPresent("meta.count", rec, Str("7"));
    SevenCastsToSeven();
    assert IntVal(Str("7")) == 7;
  }

  lemma {:induction false} MetaCountSegments()
    ensures Strings.Split("meta.count", '.') == ["meta", "count"]
  {
    Strings.SplitJoin(["meta", "count"], '.');
    assert Strings.Join(["meta", "count"], '.') == "meta.count";
  }

  lemma {:induction false} SevenCastsToSeven()
    ensures Strings.LeadingInt("7") == 7
  {
    assert Strings.SkipIntSpace("7") == "7";
    assert Strings.DigitPrefix("7") == "7";
  }

  /**
   * `get_meta_map($map, $post)`: one entry per rule, in the rules' order and under the
   * rule's key, holding that rule's field value; the first rule that throws aborts it.
   */
  function GetMetaMap(env: Env, rules: Entries<FieldRule>, rec: Record): (r: Result<Entries<Value>, Exception>)
    ensures r.Ok? <==> forall i | 0 <= i < |rules| :: GetFieldValue(env, rules[i].1, rec).Ok?
    ensures r.Ok? ==> Keys(r.value) == Keys(rules)
    ensures r.Ok? ==> forall i | 0 <= i < |rules| :: GetFieldValue(env, rules[i].1, rec) == Ok(r.value[i].1)
    ensures r.Err? ==> r.error.FieldError?
  {
    if |rules| == 0 then Ok([])
    else
      match GetFieldValue(env, rules[0].1, rec)
      case Err(e) => Err(e)
      case Ok(v) =>
        assert forall i | 1 <= i < |rules| :: rules[i] == rules[1..][i - 1];
        match GetMetaMap(env, rules[1..], rec)
        case Err(e) => Err(e)
        case Ok(rest) =>
          MetaMapCons(env, rules, rec, v, rest);
          Ok([(rules[0].0, v)] + rest)
  }

  /** The meta map of the first rule's value followed by the meta map of the other rules. */
  lemma {:induction false} MetaMapCons(env: Env, rules: Entries<FieldRule>, rec: Record, v: Value, rest: Entries<Value>)
    requires |rules| > 0 && GetFieldValue(env, rules[0].1, rec) == Ok(v)
    requires Keys(rest) == Keys(rules[1..])
    requires forall i | 0 <= i < |rules[1..]| :: GetFieldValue(env, rules[1..][i].1, rec) == Ok(rest[i].1)
    ensures var out := [(rules[0].0, v)] + rest;
            && Keys(out) == Keys(rules)
            && forall i | 0 <= i < |rules| :: GetFieldValue(env, rules[i].1, rec) == Ok(out[i].1)
  {
    var out := [(rules[0].0, v)] + rest;
    KeysCons((rules[0].0, v), rest);
    assert Keys(rules) == [rules[0].0] + Keys(rules[1..]);
    forall i | 1 <= i < |rules|
      ensures GetFieldValue(env, rules[i].1, rec) == Ok(out[i].1)
    {
      assert rules[i] == rules[1..][i - 1] && out[i] == rest[i - 1];
    }
  }

  /** A failing meta map reports the exception of the first rule that throws. */
  lemma {:induction false} MetaMapFirstError(env: Env, rules: Entries<FieldRule>, rec: Record)
    requires GetMetaMap(env, rules, rec).Err?
    ensures exists i | 0 <= i < |rules| ::
              && GetFieldValue(env, rules[i].1, rec) == Err(GetMetaMap(env, rules, rec).error)
              && forall j | 0 <= j < i :: GetFieldValue(env, rules[j].1, rec).Ok?
    decreases |rules|
  {
    var e := GetMetaMap(env, rules, rec).error;
    if GetFieldValue(env, rules[0].1, rec).Ok? {
      assert GetMetaMap(env, rules[1..], rec) == Err(e);
      MetaMapFirstError(env, rules[1..], rec);
      var i :| 0 <= i < |rules[1..]|
               && GetFieldValue(env, rules[1..][i].1, rec) == Err(e)
               && forall j | 0 <= j < i :: GetFieldValue(env, rules[1..][j].1, rec).Ok?;
      assert rules[i + 1] == rules[1..][i];
      assert forall j | 1 <= j < i + 1 :: rules[j] == rules[1..][j - 1];
    } else {
      assert GetFieldValue(env, rules[0].1, rec) == Err(e);
    }
  }

  /** Looking a key up in the meta map gives the field value of the rule under that key. */
  lemma {:induction false} MetaMapGet(env: Env, rules: Entries<FieldRule>, rec: Record, k: string)
    requires GetMetaMap(env, rules, rec).Ok?
    requires Has(rules, k)
    ensures Has(GetMetaMap(env, rules, rec).value, k)
    ensures GetFieldValue(env, Get(rules, k).value, rec) == Ok(Get(GetMetaMap(env, rules, rec).value, k).value)
    decreases |rules|
  {
    var out := GetMetaMap(env, rules, rec).value;
    var v := GetFieldValue(env, rules[0].1, rec).value;
    assert GetFieldValue(env, rules[0].1, rec).Ok?;
    assert forall i | 1 <= i < |rules| :: rules[i] == rules[1..][i - 1];
    assert GetMetaMap(env, rules[1..], rec).Ok?;
    var rest := GetMetaMap(env, rules[1..], rec).value;
    assert out == [(rules[0].0, v)] + rest;
    assert Keys(rules) == [rules[0].0] + Keys(rules[1..]);
    if rules[0].0 != k {
      assert out[1..] == rest;
      MetaMapGet(env, rules[1..], rec, k);
      assert Get(out, k) == Get(rest, k);
      assert Get(rules, k) == Get(rules[1..], k);
    }
  }

  /* ---------- taxonomy terms ---------- */

  /**
   * What `get_taxonomy_map` leaves under a taxonomy: the (single) term id, or — when
   * creating the term failed — the raw field value, which is then not assigned.
   */
  datatype TaxEntry = TermIds(ids: seq<int>) | Unresolved(raw: Value)

  /**
   * One taxonomy entry: a term whose slug exists is reused without creating anything; a
   * missing one is created; a creation error leaves the store and the raw value alone.
   */
  function ResolveTerm(env: Env, s: Store, taxonomy: string, term: Value): (r: (Store, TaxEntry))
    ensures var found := TermExists(s, taxonomy, env.sanitizeTitle(term));
            found.Some? ==> r == (s, TermIds([found.value]))
    ensures var found := TermExists(s, taxonomy, env.sanitizeTitle(term));
            found.None? && env.rejectsTerm(taxonomy, term) ==> r == (s, Unresolved(term))
    ensures var found := TermExists(s, taxonomy, env.sanitizeTitle(term));
            found.None? && !env.rejectsTerm(taxonomy, term) ==>
              && r.1 == TermIds([s.nextTermId])
              && TermExists(r.0, taxonomy, env.sanitizeTitle(term)) == Some(s.nextTermId)
    ensures r.0.posts == s.posts && r.0.nextPostId == s.nextPostId
    ensures r.0.terms.Keys >= s.terms.Keys
    ensures forall k | k in s.terms :: r.0.terms[k] == s.terms[k]
    ensures r.0.nextTermId >= s.nextTermId
  {
    var slug := env.sanitizeTitle(term);
    match TermExists(s, taxonomy, slug)
    case Some(id) => (s, TermIds([id]))
    case None =>
      match InsertTerm(env, s, taxonomy, term)
      case (s1, Some(id)) => (s1, TermIds([id]))
      case (_, None) => (s, Unresolved(term))
  }

  /** Resolving a term a second time reuses what the first resolution found or created. */
  lemma ResolveTermTwice(env: Env, s: Store, taxonomy: string, term: Value)
    requires ResolveTerm(env, s, taxonomy, term).1.TermIds?
    ensures var first := ResolveTerm(env, s, taxonomy, term);
            ResolveTerm(env, first.0, taxonomy, term) == first
  {
  }

  /** Resolve every taxonomy entry in order, threading the term store through. */
  function ResolveTerms(env: Env, s: Store, values: Entries<Value>): (r: (Store, Entries<TaxEntry>))
    ensures Keys(r.1) == Keys(values)
    ensures r.0.terms.Keys >= s.terms.Keys
    ensures forall k | k in s.terms :: r.0.terms[k] == s.terms[k]
    ensures r.0.nextTermId >= s.nextTermId
    ensures forall i | 0 <= i < |values| && r.1[i].1.Unresolved? :: r.1[i].1.raw == values[i].1
    ensures r.0.posts == s.posts && r.0.nextPostId == s.nextPostId
    decreases |values|
  {
    if |values| == 0 then (s, [])
    else
      var (s1, e) := ResolveTerm(env, s, values[0].0, values[0].1);
      var (s2, rest) := ResolveTerms(env, s1, values[1..]);
      var out := [(values[0].0, e)] + rest;
      KeysCons((values[0].0, e), rest);
      assert Keys(values) == [values[0].0] + Keys(values[1..]);
      assert forall i | 1 <= i < |values| :: values[i] == values[1..][i - 1] && out[i] == rest[i - 1];
      (s2, out)
  }

  /**
   * `get_taxonomy_map($map, $post)`: the field values of the taxonomy rules (a failing
   * field aborts before any term is touched), each resolved to a term id.
   */
  function GetTaxonomyMap(env: Env, rules: Entries<FieldRule>, rec: Record, s: Store): (r: Result<(Store, Entries<TaxEntry>), Exception>)
    ensures r.Ok? <==> GetMetaMap(env, rules, rec).Ok?
    ensures r.Err? ==> r.error == GetMetaMap(env, rules, rec).error
    ensures r.Ok? ==> Keys(r.value.1) == Keys(rules) && r.value.0.posts == s.posts && r.value.0.nextPostId == s.nextPostId
    ensures r.Ok? ==> r.value.0.terms.Keys >= s.terms.Keys && forall k | k in s.terms :: r.value.0.terms[k] == s.terms[k]
  {
    match GetMetaMap(env, rules, rec)
    case Err(e) => Err(e)
    case Ok(values) => Ok(ResolveTerms(env, s, values))
  }

  /** `term_exists($id, $taxonomy)` for an integer: some term of that taxonomy has this id. */
  predicate TermIdExists(terms: map<(string, string), int>, taxonomy: string, id: int) {
    exists k | k in terms :: k.0 == taxonomy && terms[k] == id
  }

  /** A value `wp_set_object_terms` assigns no term for: `empty()` in PHP, or a string that trims to "". */
  predicate BlankTerm(v: Value) {
    !Truthy(v) || (v.Str? && Strings.Trim(v.s) == "")
  }

  /**
   * The term ids `wp_set_object_terms` assigns for a raw field value it is handed, or
   * nothing when it returns an error first. An `empty()` value (null, false, 0, "", "0", an
   * empty array) becomes no terms, a string whose trim is "" is skipped, and so is an
   * integer naming no term of the taxonomy: each way the taxonomy ends up with no terms.
   * An existing term id is assigned. Any other value is created as a term again, which
   * WordPress refuses as it did the first time.
   */
  function RawTermIds(terms: map<(string, string), int>, taxonomy: string, raw: Value): (r: Option<seq<int>>)
    ensures BlankTerm(raw) ==> r == Some([])
    ensures r.Some? ==> |r.value| <= 1 && forall id | id in r.value :: raw == Int(id) && TermIdExists(terms, taxonomy, id)
  {
    if !Truthy(raw) then Some([])
    else
      match raw
      case Int(n) => if TermIdExists(terms, taxonomy, n) then Some([n]) else Some([])
      case Str(t) => if Strings.Trim(t) == "" then Some([]) else None
      case _ => None
  }

  /** The ids one taxonomy entry leaves on the post, or nothing when its terms stay as they were. */
  function EntryIds(terms: map<(string, string), int>, taxonomy: string, e: TaxEntry): Option<seq<int>> {
    match e
    case TermIds(ids) => Some(ids)
    case Unresolved(raw) => RawTermIds(terms, taxonomy, raw)
  }

  /**
   * The `wp_set_object_terms(..., false)` loop: each taxonomy's terms on the post are
   * replaced by the ids its entry resolves to (none at all for an entry WordPress skips);
   * an entry whose call returns an error, and everything else, stay as they were.
   */
  function AssignTerms(s: Store, postId: int, entries: Entries<TaxEntry>): (r: Store)
    ensures r.posts.Keys == s.posts.Keys
    ensures forall id | id in s.posts :: r.posts[id].fields == s.posts[id].fields && r.posts[id].meta == s.posts[id].meta
    ensures forall id | id in s.posts && id != postId :: r.posts[id] == s.posts[id]
    ensures r.terms == s.terms && r.nextPostId == s.nextPostId && r.nextTermId == s.nextTermId
    ensures postId in s.posts && UniqueKeys(entries) ==>
              forall i | 0 <= i < |entries| && EntryIds(s.terms, entries[i].0, entries[i].1).Some? ::
                entries[i].0 in r.posts[postId].terms
                && r.posts[postId].terms[entries[i].0] == EntryIds(s.terms, entries[i].0, entries[i].1).value
    ensures postId in s.posts && UniqueKeys(entries) ==>
              forall i | 0 <= i < |entries| && EntryIds(s.terms, entries[i].0, entries[i].1).None? && entries[i].0 in s.posts[postId].terms ::
                entries[i].0 in r.posts[postId].terms
                && r.posts[postId].terms[entries[i].0] == s.posts[postId].terms[entries[i].0]
    ensures postId in s.posts ==>
              forall t | !Has(entries, t) && t in s.posts[postId].terms ::
                t in r.posts[postId].terms && r.posts[postId].terms[t] == s.posts[postId].terms[t]
    decreases |entries|
  {
    if |entries| == 0 then s
    else
      var s1 := match EntryIds(s.terms, entries[0].0, entries[0].1)
        case Some(ids) => SetObjectTerms(s, postId, entries[0].0, ids)
        case None => s;
      assert s1.terms == s.terms;
      var r := AssignTerms(s1, postId, entries[1..]);
      assert Keys(entries) == [entries[0].0] + Keys(entries[1..]);
      assert UniqueKeys(entries) ==> UniqueKeys(entries[1..]) && !Has(entries[1..], entries[0].0) by {
        if UniqueKeys(entries) {
          forall i | 0 <= i < |entries| - 1
            ensures entries[1..][i].0 != entries[0].0
          {
            assert entries[1..][i] == entries[i + 1];
          }
        }
      }
      assert forall i | 1 <= i < |entries| :: entries[i] == entries[1..][i - 1];
      r
  }

  /**
   * A taxonomy field that is blank (`empty()`, or "" after trimming) and could not be
   * created as a term clears the post's terms in that taxonomy, rather than leaving them.
   */
  lemma {:induction false} EmptyTermClearsTaxonomy(s: Store, postId: int, entries: Entries<TaxEntry>, i: nat)
    requires postId in s.posts && UniqueKeys(entries)
    requires i < |entries| && entries[i].1.Unresolved? && BlankTerm(entries[i].1.raw)
    ensures var r := AssignTerms(s, postId, entries);
            entries[i].0 in r.posts[postId].terms && r.posts[postId].terms[entries[i].0] == []
  {
    assert EntryIds(s.terms, entries[i].0, entries[i].1) == Some([]);
  }

  /* ---------- one record ---------- */

  /** The external id the arguments carry (null when they carry none). */
  function DerivedId(args: PostArgs): Value {
    Get(args.fields, "ID").GetOr(Null)
  }

  /**
   * Building one record's arguments (lib/class-fuse-updater.php:101-115): merge `post_type` with the post-argument map
   * (`meta_input` always wins that key), require an "ID", and put the derived ID into the
   * meta under `fuse_id`. `key` is the record's index in the batch.
   */
  function BuildArgs(env: Env, cfg: Config, key: int, rec: Record): (r: Result<PostArgs, Exception>)
    ensures GetMetaMap(env, cfg.postarrMap, rec).Err? ==> r == Err(GetMetaMap(env, cfg.postarrMap, rec).error)
    ensures GetMetaMap(env, cfg.postarrMap, rec).Ok? && GetMetaMap(env, cfg.metaInputMap, rec).Err? ==>
              r == Err(GetMetaMap(env, cfg.metaInputMap, rec).error)
    ensures GetMetaMap(env, cfg.postarrMap, rec).Ok? && GetMetaMap(env, cfg.metaInputMap, rec).Ok? ==>
              (r.Ok? <==> Has(cfg.postarrMap, "ID")) && (r.Err? ==> r.error == NoIdError(key))
    ensures r.Ok? ==> Has(r.value.fields, "ID") && Get(r.value.metaInput, MetaIdentifierKey) == Some(DerivedId(r.value))
    ensures r.Ok? ==> !Has(r.value.fields, "meta_input")
    ensures r.Ok? && UniqueKeys(cfg.postarrMap) ==> forall k | Has(cfg.postarrMap, k) && k != "meta_input" ::
              Get(r.value.fields, k) == Get(GetMetaMap(env, cfg.postarrMap, rec).value, k)
    ensures r.Ok? ==> forall k | k != MetaIdentifierKey ::
              Get(r.value.metaInput, k) == Get(GetMetaMap(env, cfg.metaInputMap, rec).value, k)
  {
    match GetMetaMap(env, cfg.postarrMap, rec)
    case Err(e) => Err(e)
    case Ok(postarr) =>
      match GetMetaMap(env, cfg.metaInputMap, rec)
      case Err(e) => Err(e)
      case Ok(meta) =>
        var fields := ArgFields(cfg.postType, postarr);
        assert UniqueKeys(cfg.postarrMap) ==> UniqueKeys(postarr) by {
          if UniqueKeys(cfg.postarrMap) { SameKeysUnique(cfg.postarrMap, postarr); }
        }
        if !Has(fields, "ID") then Err(NoIdError(key))
        else Ok(PostArgs(fields, Put(meta, MetaIdentifierKey, Get(fields, "ID").value)))
  }

  /**
   * `array_merge(['post_type' => ...], $postarr, ['meta_input' => ...])` without its
   * meta_input part: the post type, overridden by a mapped "post_type", then every mapped field.
   */
  function ArgFields(postType: string, postarr: Entries<Value>): (r: Entries<Value>)
    ensures Has(r, "ID") <==> Has(postarr, "ID")
    ensures UniqueKeys(postarr) ==> Get(r, "ID") == Get(postarr, "ID")
    ensures !Has(postarr, "post_type") ==> Get(r, "post_type") == Some(Str(postType))
    ensures UniqueKeys(postarr) ==> forall k | Has(postarr, k) && k != "meta_input" :: Get(r, k) == Get(postarr, k)
    ensures forall k | k != "post_type" && !Has(postarr, k) :: !Has(r, k)
    ensures !Has(r, "meta_input")
  {
    var head := [("post_type", Str(postType))];
    assert Keys(head) == ["post_type"];
    var merged := Merge(head, postarr);
    var r := Remove(merged, "meta_input");
    assert Get(r, "ID") == Get(merged, "ID");
    assert Get(r, "post_type") == Get(merged, "post_type");
    r
  }

  /** Without a mapped "post_type", the built arguments are of the config's post type and carry their ID under `fuse_id`. */
  lemma {:induction false} BuildArgsWellBuilt(env: Env, cfg: Config, key: int, rec: Record)
    requires BuildArgs(env, cfg, key, rec).Ok? && !Has(cfg.postarrMap, "post_type")
    ensures WellBuilt(cfg.postType, BuildArgs(env, cfg, key, rec).value)
  {
    var postarr := GetMetaMap(env, cfg.postarrMap, rec).value;
    assert !Has(postarr, "post_type");
  }

  /** The derived ID is the field value of the "ID" rule (for a map without duplicate keys). */
  lemma {:induction false} BuildArgsIdFromRule(env: Env, cfg: Config, key: int, rec: Record)
    requires BuildArgs(env, cfg, key, rec).Ok? && UniqueKeys(cfg.postarrMap)
    ensures GetFieldValue(env, Get(cfg.postarrMap, "ID").value, rec) == Ok(DerivedId(BuildArgs(env, cfg, key, rec).value))
  {
    var postarr := GetMetaMap(env, cfg.postarrMap, rec).value;
    MetaMapGet(env, cfg.postarrMap, rec, "ID");
    assert UniqueKeys(postarr) by {
      forall i, j | 0 <= i < j < |postarr|
        ensures postarr[i].0 != postarr[j].0
      {
        assert Keys(postarr)[i] == Keys(cfg.postarrMap)[i];
        assert Keys(postarr)[j] == Keys(cfg.postarrMap)[j];
      }
    }
  }

  /** The stored date of a post (null when it has none). */
  function PostDate(p: Post): Value {
    if "post_date" in p.fields then p.fields["post_date"] else Null
  }

  /**
   * The arguments `update` hands to `wp_insert_post` (lib/class-fuse-updater.php:128-135): for a post already carrying
   * the derived ID, its native id and its own post_date; otherwise the arguments without "ID".
   */
  function UpsertArgs(s: Store, postType: string, args: PostArgs): (r: PostArgs)
    ensures r.metaInput == args.metaInput
    ensures Get(r.fields, "post_type") == Get(args.fields, "post_type")
    ensures var existing := FindPost(s, postType, MetaIdentifierKey, DerivedId(args));
            existing.Some? ==> Get(r.fields, "ID") == Some(Int(existing.value))
                               && Get(r.fields, "post_date") == Some(PostDate(s.posts[existing.value]))
    ensures FindPost(s, postType, MetaIdentifierKey, DerivedId(args)).None? ==> !Has(r.fields, "ID")
    ensures forall k | k != "ID" && k != "post_date" :: Get(r.fields, k) == Get(args.fields, k)
  {
    match FindPost(s, postType, MetaIdentifierKey, DerivedId(args))
    case Some(id) => PostArgs(Put(Put(args.fields, "ID", Int(id)), "post_date", PostDate(s.posts[id])), args.metaInput)
    case None => PostArgs(Remove(args.fields, "ID"), args.metaInput)
  }

  /**
   * The lookup and the write of `update` (lib/class-fuse-updater.php:116-138): look for the post whose `fuse_id` equals the derived ID; when
   * found, write over it (keeping its post_date), otherwise create a post. Returns the
   * written post's id, or 0 when WordPress refused the write.
   */
  function Upsert(env: Env, s: Store, postType: string, args: PostArgs): (r: (Store, int))
    ensures r.1 == 0 ==> r.0 == s
    ensures var existing := FindPost(s, postType, MetaIdentifierKey, DerivedId(args));
            existing.Some? && r.1 != 0 ==> r.1 == existing.value && r.0.posts.Keys == s.posts.Keys
    ensures FindPost(s, postType, MetaIdentifierKey, DerivedId(args)).None? && r.1 != 0 ==>
              r.1 == s.nextPostId && r.0.posts.Keys == s.posts.Keys + {r.1}
    ensures r.1 != 0 ==> r.1 in r.0.posts && r.0.posts[r.1].fields == StoredFields(env, UpsertArgs(s, postType, args))
    ensures forall id | id in s.posts && id != r.1 :: id in r.0.posts && r.0.posts[id] == s.posts[id]
    ensures r.0.terms == s.terms && r.0.nextTermId == s.nextTermId
    ensures Valid(s) ==> Valid(r.0)
  {
    InsertPost(env, s, UpsertArgs(s, postType, args))
  }

  /** An updated post keeps the non-empty post_date it had. */
  lemma {:induction false} UpsertKeepsPostDate(env: Env, s: Store, postType: string, args: PostArgs)
    requires var existing := FindPost(s, postType, MetaIdentifierKey, DerivedId(args));
             existing.Some? && Truthy(PostDate(s.posts[existing.value]))
    requires Upsert(env, s, postType, args).1 != 0
    ensures var r := Upsert(env, s, postType, args);
            PostDate(r.0.posts[r.1]) == PostDate(s.posts[r.1])
  {
    var a := UpsertArgs(s, postType, args);
    assert Get(Remove(a.fields, "ID"), "post_date") == Get(a.fields, "post_date");
  }

  /** Arguments as `update` builds them: of this post type, with the derived ID under `fuse_id`. */
  predicate WellBuilt(postType: string, args: PostArgs) {
    && Get(args.fields, "post_type") == Some(Str(postType))
    && Get(args.metaInput, MetaIdentifierKey) == Some(DerivedId(args))
  }

  /** The written post is of the post type and carries the derived ID in its `fuse_id` meta. */
  lemma {:induction false} UpsertWritesMatchingPost(env: Env, s: Store, postType: string, args: PostArgs)
    requires WellBuilt(postType, args)
    requires Upsert(env, s, postType, args).1 != 0
    ensures var r := Upsert(env, s, postType, args);
            Matches(r.0.posts[r.1], postType, MetaIdentifierKey, DerivedId(args))
  {
    var a := UpsertArgs(s, postType, args);
    assert Get(Remove(a.fields, "ID"), "post_type") == Get(a.fields, "post_type");
    assert Has(a.metaInput, MetaIdentifierKey);
  }

  /**
   * Upsert never makes a second post with the same external id: if one existed, the set of
   * posts carrying that id is unchanged; if none did, at most the written post carries it.
   */
  lemma {:induction false} UpsertNoDuplicates(env: Env, s: Store, postType: string, args: PostArgs)
    requires Valid(s) && WellBuilt(postType, args)
    requires !NoValueClause(DerivedId(args))
    ensures var r := Upsert(env, s, postType, args);
            var before := PostsWith(s, postType, MetaIdentifierKey, DerivedId(args));
            var after := PostsWith(r.0, postType, MetaIdentifierKey, DerivedId(args));
            && (before != {} ==> after == before)
            && (before == {} && r.1 != 0 ==> after == {r.1})
            && (before == {} && r.1 == 0 ==> after == {})
  {
    var r := Upsert(env, s, postType, args);
    var id := DerivedId(args);
    var before := PostsWith(s, postType, MetaIdentifierKey, id);
    var after := PostsWith(r.0, postType, MetaIdentifierKey, id);
    if r.1 != 0 {
      UpsertWritesMatchingPost(env, s, postType, args);
      if FindPost(s, postType, MetaIdentifierKey, id).Some? {
        assert r.1 in before;
        assert after == before by {
          forall p | p in after ensures p in before {
            if p != r.1 { assert r.0.posts[p] == s.posts[p]; }
          }
          forall p | p in before ensures p in after {
            if p != r.1 { assert r.0.posts[p] == s.posts[p]; }
          }
        }
      } else {
        assert before == {};
        forall p | p in after ensures p == r.1 {
        }
      }
    }
  }

  /**
   * `update` for one record: build the arguments, upsert the post, then resolve and
   * assign its taxonomy terms. On an exception the store is returned as far as it got:
   * a failing taxonomy field leaves the post already written.
   */
  function UpdateRecord(env: Env, cfg: Config, s: Store, key: int, rec: Record): (r: (Store, Option<Exception>))
    ensures BuildArgs(env, cfg, key, rec).Err? ==> r == (s, Some(BuildArgs(env, cfg, key, rec).error))
  {
    match BuildArgs(env, cfg, key, rec)
    case Err(e) => (s, Some(e))
    case Ok(args) =>
      var (s1, postId) := Upsert(env, s, cfg.postType, args);
      if postId == 0 then (s1, Some(InsertError))
      else
        match GetTaxonomyMap(env, cfg.taxInputMap, rec, s1)
        case Err(e) => (s1, Some(e))
        case Ok((s2, entries)) =>
          (AssignTerms(s2, postId, entries), None)
  }

  /**
   * An `update` that raised nothing built its arguments and read every taxonomy field; one
   * whose write WordPress refused left the store as it was.
   */
  lemma {:induction false} UpdateRecordOutcome(env: Env, cfg: Config, s: Store, key: int, rec: Record)
    ensures var r := UpdateRecord(env, cfg, s, key, rec);
            && (r.1.None? ==> BuildArgs(env, cfg, key, rec).Ok? && GetMetaMap(env, cfg.taxInputMap, rec).Ok?)
            && (r.1 == Some(InsertError) ==> r.0 == s)
  {
    if BuildArgs(env, cfg, key, rec).Ok? {
      var u := Upsert(env, s, cfg.postType, BuildArgs(env, cfg, key, rec).value);
      if u.1 != 0 {
        var t := GetTaxonomyMap(env, cfg.taxInputMap, rec, u.0);
        assert t.Ok? <==> GetMetaMap(env, cfg.taxInputMap, rec).Ok?;
      }
    }
  }

  /* ---------- the store-level invariant ---------- */

  /** A post this post type's sync owns: of the post type and carrying a `fuse_id`. */
  predicate Synced(p: Post, postType: string) {
    "post_type" in p.fields && p.fields["post_type"] == Str(postType) && MetaIdentifierKey in p.meta
  }

  /** No two synced posts of the post type share an external id. */
  ghost predicate UniqueExternalIds(s: Store, postType: string) {
    forall a, b | a in s.posts && b in s.posts && a != b && Synced(s.posts[a], postType) && Synced(s.posts[b], postType) ::
      s.posts[a].meta[MetaIdentifierKey] != s.posts[b].meta[MetaIdentifierKey]
  }

  /** The two stores hold the same posts with the same fields and meta (terms may differ). */
  ghost predicate SameContent(s: Store, t: Store) {
    && s.posts.Keys == t.posts.Keys
    && (forall id | id in s.posts :: s.posts[id].fields == t.posts[id].fields && s.posts[id].meta == t.posts[id].meta)
    && s.nextPostId == t.nextPostId
  }

  lemma {:induction false} SameContentTransfers(s: Store, t: Store, postType: string)
    requires SameContent(s, t)
    ensures forall v :: PostsWith(s, postType, MetaIdentifierKey, v) == PostsWith(t, postType, MetaIdentifierKey, v)
    ensures UniqueExternalIds(s, postType) ==> UniqueExternalIds(t, postType)
    ensures Valid(s) ==> Valid(t)
  {
    forall v
      ensures PostsWith(s, postType, MetaIdentifierKey, v) == PostsWith(t, postType, MetaIdentifierKey, v)
    {
      assert forall id | id in s.posts :: Matches(s.posts[id], postType, MetaIdentifierKey, v) == Matches(t.posts[id], postType, MetaIdentifierKey, v);
    }
  }

  /** Upsert only ever adds posts to the set carrying any given external id. */
  lemma {:induction false} UpsertKeepsMatches(env: Env, s: Store, postType: string, args: PostArgs, v: Value)
    requires Valid(s) && WellBuilt(postType, args)
    requires !NoValueClause(DerivedId(args))
    ensures PostsWith(s, postType, MetaIdentifierKey, v) <= PostsWith(Upsert(env, s, postType, args).0, postType, MetaIdentifierKey, v)
  {
    var r := Upsert(env, s, postType, args);
    if r.1 != 0 {
      UpsertWritesMatchingPost(env, s, postType, args);
    }
  }

  /** Upsert keeps external ids unique. */
  lemma {:induction false} UpsertKeepsUnique(env: Env, s: Store, postType: string, args: PostArgs)
    requires Valid(s) && WellBuilt(postType, args) && UniqueExternalIds(s, postType)
    requires !NoValueClause(DerivedId(args))
    ensures UniqueExternalIds(Upsert(env, s, postType, args).0, postType)
  {
    var r := Upsert(env, s, postType, args);
    var id := DerivedId(args);
    if r.1 != 0 {
      UpsertWritesMatchingPost(env, s, postType, args);
      var existing := FindPost(s, postType, MetaIdentifierKey, id);
      forall a, b | a in r.0.posts && b in r.0.posts && a != b && Synced(r.0.posts[a], postType) && Synced(r.0.posts[b], postType)
        ensures r.0.posts[a].meta[MetaIdentifierKey] != r.0.posts[b].meta[MetaIdentifierKey]
      {
        if a == r.1 || b == r.1 {
          var q := if a == r.1 then b else a;
          assert q in s.posts && r.0.posts[q] == s.posts[q];
        }
      }
    }
  }

  /** One synced post of type "post", native id 1, carrying the external id 7. */
  function SyncedSevenStore(): Store {
    Store(map[1 := Post(map["post_type" := Str("post")], map[MetaIdentifierKey := Int(7)], map[])], 2, map[], 1)
  }

  /** Arguments as `update` builds them for a "post" record whose ID is "". */
  function EmptyIdArgs(): PostArgs {
    PostArgs([("post_type", Str("post")), ("ID", Str(""))], [(MetaIdentifierKey, Str(""))])
  }

  /** With the ID "", the lookup drops its value clause and finds post 1, which carries 7. */
  lemma {:induction false} EmptyIdFindsSyncedPost()
    ensures DerivedId(EmptyIdArgs()) == Str("")
    ensures FindPost(SyncedSevenStore(), "post", MetaIdentifierKey, Str("")) == Some(1)
  {
    assert Keys(EmptyIdArgs().fields) == ["post_type", "ID"];
    assert QueryMatches(SyncedSevenStore().posts[1], "post", MetaIdentifierKey, Str(""));
  }

  /** The arguments the write for the ID "" receives: post 1's id and its (absent) post_date. */
  function EmptyIdWrite(): PostArgs {
    PostArgs([("post_type", Str("post")), ("ID", Int(1)), ("post_date", Null)], [(MetaIdentifierKey, Str(""))])
  }

  /** The lookup for the ID "" sends the write to post 1. */
  lemma {:induction false} EmptyIdUpsertArgs()
    ensures UpsertArgs(SyncedSevenStore(), "post", EmptyIdArgs()) == EmptyIdWrite()
  {
    EmptyIdFindsSyncedPost();
    assert PostDate(SyncedSevenStore().posts[1]) == Null;
  }

  /** `wp_insert_post` with those arguments writes over post 1 and leaves "" in its `fuse_id`. */
  lemma {:induction false} EmptyIdInsert(env: Env)
    requires forall a :: !env.rejectsPost(a)
    ensures var r := InsertPost(env, SyncedSevenStore(), EmptyIdWrite());
            r.1 == 1 && r.0.posts.Keys == {1} && r.0.posts[1].meta[MetaIdentifierKey] == Str("")
  {
    var a := EmptyIdWrite();
    assert !env.rejectsPost(a);
    assert Get(a.fields, "ID") == Some(Int(1));
    assert Keys(a.metaInput) == [MetaIdentifierKey];
    assert Get(a.metaInput, MetaIdentifierKey) == Some(Str(""));
  }

  /** As written, the write for the ID "" goes to post 1 and leaves "" in its `fuse_id`. */
  lemma {:induction false} EmptyIdWritesPostOne(env: Env)
    requires forall a :: !env.rejectsPost(a)
    ensures var r := Upsert(env, SyncedSevenStore(), "post", EmptyIdArgs());
            r.1 == 1 && r.0.posts.Keys == {1} && r.0.posts[1].meta[MetaIdentifierKey] == Str("")
  {
    EmptyIdUpsertArgs();
    EmptyIdInsert(env);
    assert Upsert(env, SyncedSevenStore(), "post", EmptyIdArgs()) == InsertPost(env, SyncedSevenStore(), EmptyIdWrite());
  }

  /**
   * A derived ID of "" (an API record whose id is empty) makes the lookup drop its
   * `meta_value` clause, so it returns a synced post carrying another external id, and the
   * write moves that post to the empty id: the posts carrying 7 lose their only member.
   */
  lemma {:induction false} EmptyIdOverwritesSyncedPost(env: Env)
    requires forall a :: !env.rejectsPost(a)
    ensures var r := Upsert(env, SyncedSevenStore(), "post", EmptyIdArgs());
            && Valid(SyncedSevenStore()) && WellBuilt("post", EmptyIdArgs())
            && PostsWith(SyncedSevenStore(), "post", MetaIdentifierKey, Int(7)) == {1}
            && r.1 == 1 && PostsWith(r.0, "post", MetaIdentifierKey, Int(7)) == {}
  {
    var s := SyncedSevenStore();
    EmptyIdFindsSyncedPost();
    EmptyIdWritesPostOne(env);
    assert Keys(EmptyIdArgs().metaInput) == [MetaIdentifierKey];
    assert PostsWith(s, "post", MetaIdentifierKey, Int(7)) == {1} by {
      assert Matches(s.posts[1], "post", MetaIdentifierKey, Int(7));
    }
  }

  /**
   * Upsert as evidently intended: a derived ID the meta query would drop writes nothing,
   * instead of taking over whichever synced post the unfiltered lookup returns.
   */
  function UpsertChecked(env: Env, s: Store, postType: string, args: PostArgs): (r: (Store, int))
    ensures NoValueClause(DerivedId(args)) ==> r == (s, 0)
    ensures r.1 == 0 ==> r.0 == s
    ensures r.1 != 0 && WellBuilt(postType, args) ==>
              r.1 in r.0.posts && Matches(r.0.posts[r.1], postType, MetaIdentifierKey, DerivedId(args))
  {
    if NoValueClause(DerivedId(args)) then (s, 0)
    else
      var r := Upsert(env, s, postType, args);
      if r.1 != 0 && WellBuilt(postType, args) then UpsertWritesMatchingPost(env, s, postType, args); r
      else r
  }

  /** The checked upsert keeps every external id's posts and keeps external ids unique, whatever the derived ID. */
  lemma {:induction false} UpsertCheckedKeepsIds(env: Env, s: Store, postType: string, args: PostArgs)
    requires Valid(s) && WellBuilt(postType, args)
    ensures forall v :: PostsWith(s, postType, MetaIdentifierKey, v) <= PostsWith(UpsertChecked(env, s, postType, args).0, postType, MetaIdentifierKey, v)
    ensures UniqueExternalIds(s, postType) ==> UniqueExternalIds(UpsertChecked(env, s, postType, args).0, postType)
  {
    if !NoValueClause(DerivedId(args)) {
      forall v
        ensures PostsWith(s, postType, MetaIdentifierKey, v) <= PostsWith(Upsert(env, s, postType, args).0, postType, MetaIdentifierKey, v)
      {
        UpsertKeepsMatches(env, s, postType, args, v);
      }
      if UniqueExternalIds(s, postType) {
        UpsertKeepsUnique(env, s, postType, args);
      }
    }
  }

  /** What `update` writes for one record: the upsert's fields and meta; the taxonomy step touches only terms. */
  lemma {:induction false} UpdateRecordStages(env: Env, cfg: Config, s: Store, key: int, rec: Record)
    requires BuildArgs(env, cfg, key, rec).Ok?
    ensures SameContent(Upsert(env, s, cfg.postType, BuildArgs(env, cfg, key, rec).value).0, UpdateRecord(env, cfg, s, key, rec).0)
  {
    var u := Upsert(env, s, cfg.postType, BuildArgs(env, cfg, key, rec).value);
    if u.1 != 0 {
      var t := GetTaxonomyMap(env, cfg.taxInputMap, rec, u.0);
      if t.Ok? {
        var a := AssignTerms(t.value.0, u.1, t.value.1);
        assert UpdateRecord(env, cfg, s, key, rec).0 == a;
        assert t.value.0.posts == u.0.posts;
      }
    }
  }

  /** One record's `update` creates at most one post, under the next free id. */
  lemma {:induction false} UpdateRecordCreatesAtMostOne(env: Env, cfg: Config, s: Store, key: int, rec: Record)
    ensures UpdateRecord(env, cfg, s, key, rec).0.posts.Keys <= s.posts.Keys + {s.nextPostId}
  {
    if BuildArgs(env, cfg, key, rec).Ok? {
      UpdateRecordStages(env, cfg, s, key, rec);
    }
  }

  /**
   * The record's derived ID is a value the `fuse_id` lookup really filters on: not "",
   * null or an empty array, which WordPress drops from the meta query.
   */
  predicate QueriedById(env: Env, cfg: Config, key: int, rec: Record) {
    BuildArgs(env, cfg, key, rec).Ok? ==> !NoValueClause(DerivedId(BuildArgs(env, cfg, key, rec).value))
  }

  /**
   * `update` of one record never duplicates its post: afterwards exactly the posts that
   * carried the record's external id before carry it, or — when none did and the write
   * went through — exactly the one it created.
   */
  lemma {:induction false} UpdateRecordNoDuplicates(env: Env, cfg: Config, s: Store, key: int, rec: Record)
    requires Valid(s) && BuildArgs(env, cfg, key, rec).Ok? && !Has(cfg.postarrMap, "post_type")
    requires QueriedById(env, cfg, key, rec)
    ensures var id := DerivedId(BuildArgs(env, cfg, key, rec).value);
            var r := UpdateRecord(env, cfg, s, key, rec);
            var before := PostsWith(s, cfg.postType, MetaIdentifierKey, id);
            var after := PostsWith(r.0, cfg.postType, MetaIdentifierKey, id);
            && (before != {} ==> after == before)
            && (before == {} ==> |after| <= 1)
            && (r.1 != Some(InsertError) ==> after != {})
  {
    var args := BuildArgs(env, cfg, key, rec).value;
    var id := DerivedId(args);
    var u := Upsert(env, s, cfg.postType, args);
    var r := UpdateRecord(env, cfg, s, key, rec);
    BuildArgsWellBuilt(env, cfg, key, rec);
    UpsertNoDuplicates(env, s, cfg.postType, args);
    UpdateRecordStages(env, cfg, s, key, rec);
    SameContentTransfers(u.0, r.0, cfg.postType);
    assert PostsWith(r.0, cfg.postType, MetaIdentifierKey, id) == PostsWith(u.0, cfg.postType, MetaIdentifierKey, id);
    assert u.1 == 0 ==> r.1 == Some(InsertError);
  }

  /** One record's `update` keeps native ids valid. */
  lemma {:induction false} UpdateRecordKeepsValid(env: Env, cfg: Config, s: Store, key: int, rec: Record)
    ensures Valid(s) ==> Valid(UpdateRecord(env, cfg, s, key, rec).0)
  {
    if Valid(s) && BuildArgs(env, cfg, key, rec).Ok? {
      var u := Upsert(env, s, cfg.postType, BuildArgs(env, cfg, key, rec).value);
      UpdateRecordStages(env, cfg, s, key, rec);
      SameContentTransfers(u.0, UpdateRecord(env, cfg, s, key, rec).0, cfg.postType);
    }
  }

  /** A record whose `update` raised nothing has a post carrying its external id afterwards. */
  lemma {:induction false} UpdateRecordSyncs(env: Env, cfg: Config, s: Store, key: int, rec: Record)
    requires Valid(s) && !Has(cfg.postarrMap, "post_type") && UpdateRecord(env, cfg, s, key, rec).1.None?
    ensures BuildArgs(env, cfg, key, rec).Ok?
    ensures PostsWith(UpdateRecord(env, cfg, s, key, rec).0, cfg.postType, MetaIdentifierKey,
                      DerivedId(BuildArgs(env, cfg, key, rec).value)) != {}
  {
    UpdateRecordOutcome(env, cfg, s, key, rec);
    var args := BuildArgs(env, cfg, key, rec).value;
    var u := Upsert(env, s, cfg.postType, args);
    var r := UpdateRecord(env, cfg, s, key, rec);
    assert u.1 != 0;
    BuildArgsWellBuilt(env, cfg, key, rec);
    UpsertWritesMatchingPost(env, s, cfg.postType, args);
    assert u.1 in PostsWith(u.0, cfg.postType, MetaIdentifierKey, DerivedId(args));
    UpdateRecordStages(env, cfg, s, key, rec);
    SameContentTransfers(u.0, r.0, cfg.postType);
  }

  /** A record whose post already exists creates no post: the lookup finds it and the write goes to it. */
  lemma {:induction false} UpdateRecordOfSyncedCreatesNothing(env: Env, cfg: Config, s: Store, key: int, rec: Record)
    requires Valid(s)
    requires BuildArgs(env, cfg, key, rec).Ok? ==>
               PostsWith(s, cfg.postType, MetaIdentifierKey, DerivedId(BuildArgs(env, cfg, key, rec).value)) != {}
    ensures UpdateRecord(env, cfg, s, key, rec).0.posts.Keys == s.posts.Keys
  {
    if BuildArgs(env, cfg, key, rec).Ok? {
      var args := BuildArgs(env, cfg, key, rec).value;
      assert FindPost(s, cfg.postType, MetaIdentifierKey, DerivedId(args)).Some?;
      UpdateRecordStages(env, cfg, s, key, rec);
    }
  }

  /** One record's `update` keeps every external id's posts and keeps external ids unique. */
  lemma {:induction false} UpdateRecordKeeps(env: Env, cfg: Config, s: Store, key: int, rec: Record)
    requires Valid(s) && !Has(cfg.postarrMap, "post_type") && QueriedById(env, cfg, key, rec)
    ensures forall v :: PostsWith(s, cfg.postType, MetaIdentifierKey, v) <= PostsWith(UpdateRecord(env, cfg, s, key, rec).0, cfg.postType, MetaIdentifierKey, v)
    ensures UniqueExternalIds(s, cfg.postType) ==> UniqueExternalIds(UpdateRecord(env, cfg, s, key, rec).0, cfg.postType)
  {
    if BuildArgs(env, cfg, key, rec).Ok? {
      var args := BuildArgs(env, cfg, key, rec).value;
      BuildArgsWellBuilt(env, cfg, key, rec);
      var u := Upsert(env, s, cfg.postType, args);
      forall v
        ensures PostsWith(s, cfg.postType, MetaIdentifierKey, v) <= PostsWith(u.0, cfg.postType, MetaIdentifierKey, v)
      {
        UpsertKeepsMatches(env, s, cfg.postType, args, v);
      }
      if UniqueExternalIds(s, cfg.postType) {
        UpsertKeepsUnique(env, s, cfg.postType, args);
      }
      UpdateRecordStages(env, cfg, s, key, rec);
      SameContentTransfers(u.0, UpdateRecord(env, cfg, s, key, rec).0, cfg.postType);
    }
  }

  /* ---------- one batch ---------- */

  /**
   * `update($data)`: the records in order, each under its index in the batch; the first
   * exception ends the batch, with the records before it already written.
   */
  function Update(env: Env, cfg: Config, s: Store, batch: seq<Record>): (r: (Store, Option<Exception>))
    ensures Valid(s) ==> Valid(r.0)
  {
    UpdateFrom(env, cfg, s, batch, 0)
  }

  function UpdateFrom(env: Env, cfg: Config, s: Store, batch: seq<Record>, i: nat): (r: (Store, Option<Exception>))
    requires i <= |batch|
    ensures Valid(s) ==> Valid(r.0)
    decreases |batch| - i
  {
    if i == |batch| then (s, None)
    else
      var (s1, e) := UpdateRecord(env, cfg, s, i, batch[i]);
      UpdateRecordKeepsValid(env, cfg, s, i, batch[i]);
      if e.Some? then (s1, e) else UpdateFrom(env, cfg, s1, batch, i + 1)
  }

  /** Unfolding helper: `UpdateFrom` opened once, the record at `i` then — unless it raised — the rest. */
  lemma UpdateFromStep(env: Env, cfg: Config, s: Store, batch: seq<Record>, i: nat)
    requires i < |batch|
    ensures var u := UpdateRecord(env, cfg, s, i, batch[i]);
            UpdateFrom(env, cfg, s, batch, i) == if u.1.Some? then u else UpdateFrom(env, cfg, u.0, batch, i + 1)
  {
  }

  /** A batch that raised nothing had its first record raise nothing, and went on from there. */
  lemma {:induction false} UpdateFromHead(env: Env, cfg: Config, s: Store, batch: seq<Record>, i: nat)
    requires i < |batch| && UpdateFrom(env, cfg, s, batch, i).1.None?
    ensures var u := UpdateRecord(env, cfg, s, i, batch[i]);
            && u.1.None? && BuildArgs(env, cfg, i, batch[i]).Ok?
            && UpdateFrom(env, cfg, s, batch, i) == UpdateFrom(env, cfg, u.0, batch, i + 1)
  {
    UpdateRecordOutcome(env, cfg, s, i, batch[i]);
  }

  /** Every record of the batch has a derived ID the `fuse_id` lookup filters on. */
  predicate IdsQueried(env: Env, cfg: Config, batch: seq<Record>) {
    forall j | 0 <= j < |batch| :: QueriedById(env, cfg, j, batch[j])
  }

  /**
   * A batch that raised stopped at the first record that raised: the records before it ran
   * through without an exception, and the batch ends in exactly that record's outcome, so
   * nothing after it is written.
   */
  lemma {:induction false} UpdateFromFailsFast(env: Env, cfg: Config, s: Store, batch: seq<Record>, i: nat)
    requires i <= |batch| && UpdateFrom(env, cfg, s, batch, i).1.Some?
    ensures exists j | i <= j < |batch| ::
              var p := UpdateFrom(env, cfg, s, batch[..j], i);
              p.1.None? && UpdateRecord(env, cfg, p.0, j, batch[j]) == UpdateFrom(env, cfg, s, batch, i)
    decreases |batch| - i
  {
    var u := UpdateRecord(env, cfg, s, i, batch[i]);
    if u.1.Some? {
      assert UpdateFrom(env, cfg, s, batch[..i], i) == (s, None);
      assert UpdateRecord(env, cfg, s, i, batch[i]) == UpdateFrom(env, cfg, s, batch, i);
    } else {
      UpdateFromFailsFast(env, cfg, u.0, batch, i + 1);
      var j :| i + 1 <= j < |batch| &&
               var p := UpdateFrom(env, cfg, u.0, batch[..j], i + 1);
               p.1.None? && UpdateRecord(env, cfg, p.0, j, batch[j]) == UpdateFrom(env, cfg, u.0, batch, i + 1);
      assert batch[..j][i] == batch[i];
      assert UpdateFrom(env, cfg, s, batch[..j], i) == UpdateFrom(env, cfg, u.0, batch[..j], i + 1);
    }
  }

  /** An "ID" rule read from the record and sanitised as a 'number', as the shipped post config has. */
  predicate NumericIdRule(cfg: Config) {
    && UniqueKeys(cfg.postarrMap) && Has(cfg.postarrMap, "ID")
    && !IsManual(Get(cfg.postarrMap, "ID").value) && Get(cfg.postarrMap, "ID").value.dataType == Some("number")
  }

  /** Under a numeric "ID" rule every derived ID is an integer, which the lookup always filters on. */
  lemma {:induction false} NumericIdRuleQueries(env: Env, cfg: Config, batch: seq<Record>)
    requires NumericIdRule(cfg)
    ensures IdsQueried(env, cfg, batch)
  {
    forall j | 0 <= j < |batch|
      ensures QueriedById(env, cfg, j, batch[j])
    {
      if BuildArgs(env, cfg, j, batch[j]).Ok? {
        BuildArgsIdFromRule(env, cfg, j, batch[j]);
      }
    }
  }

  /** A batch keeps every external id's posts and keeps external ids unique. */
  lemma {:induction false} UpdateFromKeeps(env: Env, cfg: Config, s: Store, batch: seq<Record>, i: nat)
    requires i <= |batch| && Valid(s) && !Has(cfg.postarrMap, "post_type")
    requires IdsQueried(env, cfg, batch)
    ensures forall v :: PostsWith(s, cfg.postType, MetaIdentifierKey, v) <= PostsWith(UpdateFrom(env, cfg, s, batch, i).0, cfg.postType, MetaIdentifierKey, v)
    ensures UniqueExternalIds(s, cfg.postType) ==> UniqueExternalIds(UpdateFrom(env, cfg, s, batch, i).0, cfg.postType)
    decreases |batch| - i
  {
    if i < |batch| {
      UpdateRecordKeeps(env, cfg, s, i, batch[i]);
      UpdateRecordKeepsValid(env, cfg, s, i, batch[i]);
      var (s1, e) := UpdateRecord(env, cfg, s, i, batch[i]);
      if e.None? {
        UpdateFromKeeps(env, cfg, s1, batch, i + 1);
      }
    }
  }

  /** The external id the record at index `j` of the batch carries (null when its arguments cannot be built). */
  function RecordId(env: Env, cfg: Config, batch: seq<Record>, j: nat): Value
    requires j < |batch|
  {
    match BuildArgs(env, cfg, j, batch[j])
    case Ok(args) => DerivedId(args)
    case Err(_) => Null
  }

  /** After a batch that raised nothing, every record of it has a post carrying its external id. */
  lemma {:induction false} UpdateFromSyncsEveryRecord(env: Env, cfg: Config, s: Store, batch: seq<Record>, i: nat)
    requires i <= |batch| && Valid(s) && !Has(cfg.postarrMap, "post_type")
    requires IdsQueried(env, cfg, batch)
    requires UpdateFrom(env, cfg, s, batch, i).1.None?
    ensures forall j | i <= j < |batch| ::
              PostsWith(UpdateFrom(env, cfg, s, batch, i).0, cfg.postType, MetaIdentifierKey, RecordId(env, cfg, batch, j)) != {}
    decreases |batch| - i
  {
    if i < |batch| {
      UpdateFromHead(env, cfg, s, batch, i);
      var u := UpdateRecord(env, cfg, s, i, batch[i]);
      var r := UpdateFrom(env, cfg, s, batch, i);
      UpdateRecordKeepsValid(env, cfg, s, i, batch[i]);
      UpdateRecordSyncs(env, cfg, s, i, batch[i]);
      UpdateFromSyncsEveryRecord(env, cfg, u.0, batch, i + 1);
      UpdateFromKeeps(env, cfg, u.0, batch, i + 1);
      assert r == UpdateFrom(env, cfg, u.0, batch, i + 1);
      forall j | i <= j < |batch|
        ensures PostsWith(r.0, cfg.postType, MetaIdentifierKey, RecordId(env, cfg, batch, j)) != {}
      {
        if j == i {
          var id := RecordId(env, cfg, batch, i);
          assert PostsWith(u.0, cfg.postType, MetaIdentifierKey, id) != {};
          assert PostsWith(u.0, cfg.postType, MetaIdentifierKey, id) <= PostsWith(r.0, cfg.postType, MetaIdentifierKey, id);
        }
      }
    }
  }

  /** A batch every record of which already has its post creates no post. */
  lemma {:induction false} UpdateFromOfSyncedCreatesNothing(env: Env, cfg: Config, s: Store, batch: seq<Record>, i: nat)
    requires i <= |batch| && Valid(s) && !Has(cfg.postarrMap, "post_type")
    requires IdsQueried(env, cfg, batch)
    requires forall j | i <= j < |batch| :: PostsWith(s, cfg.postType, MetaIdentifierKey, RecordId(env, cfg, batch, j)) != {}
    ensures UpdateFrom(env, cfg, s, batch, i).0.posts.Keys == s.posts.Keys
    decreases |batch| - i
  {
    if i < |batch| {
      UpdateFromStep(env, cfg, s, batch, i);
      var u := UpdateRecord(env, cfg, s, i, batch[i]);
      assert PostsWith(s, cfg.postType, MetaIdentifierKey, RecordId(env, cfg, batch, i)) != {};
      UpdateRecordOfSyncedCreatesNothing(env, cfg, s, i, batch[i]);
      if u.1.None? {
        UpdateRecordKeeps(env, cfg, s, i, batch[i]);
        UpdateRecordKeepsValid(env, cfg, s, i, batch[i]);
        forall j | i + 1 <= j < |batch|
          ensures PostsWith(u.0, cfg.postType, MetaIdentifierKey, RecordId(env, cfg, batch, j)) != {}
        {
          var v := RecordId(env, cfg, batch, j);
          assert PostsWith(s, cfg.postType, MetaIdentifierKey, v) != {};
          assert PostsWith(s, cfg.postType, MetaIdentifierKey, v) <= PostsWith(u.0, cfg.postType, MetaIdentifierKey, v);
        }
        UpdateFromOfSyncedCreatesNothing(env, cfg, u.0, batch, i + 1);
      }
    }
  }

  /**
   * Re-running a batch that went through creates no post: the second run finds every
   * record's post and writes over it.
   */
  lemma {:induction false} UpdateTwiceCreatesNothing(env: Env, cfg: Config, s: Store, batch: seq<Record>)
    requires Valid(s) && !Has(cfg.postarrMap, "post_type")
    requires IdsQueried(env, cfg, batch)
    requires Update(env, cfg, s, batch).1.None?
    ensures var once := Update(env, cfg, s, batch).0;
            Update(env, cfg, once, batch).0.posts.Keys == once.posts.Keys
  {
    UpdateFromSyncsEveryRecord(env, cfg, s, batch, 0);
    UpdateFromOfSyncedCreatesNothing(env, cfg, Update(env, cfg, s, batch).0, batch, 0);
  }

  /** A batch keeps external ids unique. */
  lemma {:induction false} UpdateKeepsUnique(env: Env, cfg: Config, s: Store, batch: seq<Record>)
    requires Valid(s) && !Has(cfg.postarrMap, "post_type") && UniqueExternalIds(s, cfg.postType)
    requires IdsQueried(env, cfg, batch)
    ensures UniqueExternalIds(Update(env, cfg, s, batch).0, cfg.postType)
  {
    UpdateFromKeeps(env, cfg, s, batch, 0);
  }

  /** Without an "ID" rule the first record of a non-empty batch aborts it, and nothing is written. */
  lemma UpdateWithoutIdRuleFails(env: Env, cfg: Config, s: Store, batch: seq<Record>)
    requires |batch| > 0 && !Has(cfg.postarrMap, "ID")
    requires GetMetaMap(env, cfg.postarrMap, batch[0]).Ok? && GetMetaMap(env, cfg.metaInputMap, batch[0]).Ok?
    ensures Update(env, cfg, s, batch) == (s, Some(NoIdError(0)))
  {
  }

  /* ---------- cleanup ---------- */

  /** `$obj->{$key}`: the record's property, null when it has none. */
  function Prop(rec: Record, key: string): Value {
    if key in rec then rec[key] else Null
  }

  /**
   * The property `cleanup` reads the API id from: the "ID" rule's `api_field_key`. Without
   * an "ID" rule the array read yields null, which names the property "".
   */
  function CleanupIdKey(cfg: Config): string {
    match Get(cfg.postarrMap, "ID")
    case None => ""
    case Some(rule) => rule.apiFieldKey.GetOr("")
  }

  /** `$api_ids`: the `(int)` of every record's id property. */
  function ApiIds(cfg: Config, data: seq<Record>): (ids: set<int>)
    ensures forall i | 0 <= i < |data| :: IntVal(Prop(data[i], CleanupIdKey(cfg))) in ids
    ensures forall n | n in ids :: exists i | 0 <= i < |data| :: IntVal(Prop(data[i], CleanupIdKey(cfg))) == n
  {
    set i | 0 <= i < |data| :: IntVal(Prop(data[i], CleanupIdKey(cfg)))
  }

  /** The posts `cleanup` deletes: synced posts whose `(int)` external id is not among the API ids. */
  predicate Stale(p: Post, postType: string, apiIds: set<int>) {
    Synced(p, postType) && IntVal(p.meta[MetaIdentifierKey]) !in apiIds
  }

  /**
   * `cleanup($data)` as written: every synced post of the post type whose external id,
   * read as an integer, is missing from the API ids is deleted; every other post stays
   * as it was.
   */
  function Cleanup(cfg: Config, s: Store, data: seq<Record>): (r: Store)
    ensures forall id :: id in r.posts <==> id in s.posts && !Stale(s.posts[id], cfg.postType, ApiIds(cfg, data))
    ensures forall id | id in r.posts :: r.posts[id] == s.posts[id]
    ensures r.terms == s.terms && r.nextPostId == s.nextPostId && r.nextTermId == s.nextTermId
  {
    var ids := ApiIds(cfg, data);
    s.(posts := map id | id in s.posts && !Stale(s.posts[id], cfg.postType, ids) :: s.posts[id])
  }

  /** A synced post whose external id matches some record's id survives cleanup. */
  lemma CleanupKeepsDatasetPosts(cfg: Config, s: Store, data: seq<Record>, id: int, i: nat)
    requires id in s.posts && Synced(s.posts[id], cfg.postType)
    requires i < |data| && IntVal(s.posts[id].meta[MetaIdentifierKey]) == IntVal(Prop(data[i], CleanupIdKey(cfg)))
    ensures id in Cleanup(cfg, s, data).posts
  {
  }

  /** Cleanup removes posts only, so it keeps the store valid and external ids unique. */
  lemma CleanupKeepsInvariants(cfg: Config, s: Store, data: seq<Record>)
    ensures Valid(s) ==> Valid(Cleanup(cfg, s, data))
    ensures UniqueExternalIds(s, cfg.postType) ==> UniqueExternalIds(Cleanup(cfg, s, data), cfg.postType)
    ensures Cleanup(cfg, s, data).posts.Keys <= s.posts.Keys
  {
  }

  /** A second cleanup against the same data deletes nothing more. */
  lemma {:induction false} CleanupIdempotent(cfg: Config, s: Store, data: seq<Record>)
    ensures Cleanup(cfg, Cleanup(cfg, s, data), data) == Cleanup(cfg, s, data)
  {
    var once := Cleanup(cfg, s, data);
    assert once.posts == Cleanup(cfg, once, data).posts;
  }

  /**
   * Without an "ID" rule, cleanup as written does not raise its "No ID key" exception (the
   * array read cannot throw); every record's id reads as 0, so every synced post whose
   * external id is not 0 is deleted, whatever the data.
   */
  lemma {:induction false} CleanupWithoutIdRuleDeletesSynced(cfg: Config, s: Store, data: seq<Record>, id: int)
    requires !Has(cfg.postarrMap, "ID")
    requires forall i | 0 <= i < |data| :: "" !in data[i]
    requires id in s.posts && Synced(s.posts[id], cfg.postType) && IntVal(s.posts[id].meta[MetaIdentifierKey]) != 0
    ensures id !in Cleanup(cfg, s, data).posts
  {
    assert CleanupIdKey(cfg) == "";
    assert ApiIds(cfg, data) <= {0};
  }

  /** The concrete case: the API still lists record 5, yet the post synced from it is deleted. */
  lemma {:induction false} CleanupWithoutIdRuleExample()
    ensures var cfg := Config("post", "/posts", "https://example.org", [], [], [], 10, 86400, 600);
            var p := Post(map["post_type" := Str("post")], map[MetaIdentifierKey := Int(5)], map[]);
            var s := Store(map[1 := p], 2, map[], 1);
            var data := [map["id" := Int(5)]];
            Cleanup(cfg, s, data).posts == map[]
  {
    var cfg := Config("post", "/posts", "https://example.org", [], [], [], 10, 86400, 600);
    var p := Post(map["post_type" := Str("post")], map[MetaIdentifierKey := Int(5)], map[]);
    var s := Store(map[1 := p], 2, map[], 1);
    var data := [map["id" := Int(5)]];
    CleanupWithoutIdRuleDeletesSynced(cfg, s, data, 1);
  }

  /**
   * Cleanup as evidently intended: a config without an "ID" rule raises "No ID key found"
   * and deletes nothing; otherwise it is `cleanup` as written.
   */
  function CleanupChecked(cfg: Config, s: Store, data: seq<Record>): (r: Result<Store, Exception>)
    ensures r.Err? <==> !Has(cfg.postarrMap, "ID")
    ensures r.Err? ==> r.error == ConfigError
    ensures r.Ok? ==> r.value.posts.Keys <= s.posts.Keys && forall id | id in r.value.posts :: r.value.posts[id] == s.posts[id]
  {
    if !Has(cfg.postarrMap, "ID") then Err(ConfigError)
    else Ok(Cleanup(cfg, s, data))
  }

  /**
   * With the check in place, a post synced from a record the API still lists is never
   * deleted: a missing "ID" rule stops cleanup, and with one the record's id is read from
   * the rule's property.
   */
  lemma CleanupCheckedKeepsListedPosts(cfg: Config, s: Store, data: seq<Record>, id: int, i: nat)
    requires id in s.posts && Synced(s.posts[id], cfg.postType)
    requires i < |data| && IntVal(s.posts[id].meta[MetaIdentifierKey]) == IntVal(Prop(data[i], Get(cfg.postarrMap, "ID").GetOr(FieldRule(None, None, None, None, None)).apiFieldKey.GetOr("")))
    ensures CleanupChecked(cfg, s, data).Ok? ==> id in CleanupChecked(cfg, s, data).value.posts
  {
  }
}

=== FILE: wordpress.dfy ===
/**
 * The slice of WordPress the sync engine calls, as map-based stores: posts with their
 * fields, meta and term assignments; terms keyed by taxonomy and slug. Text helpers and
 * the cases where WordPress refuses a write are uninterpreted functions carried by `Env`.
 */
module WordPress {
  import opened Wrappers
  import opened Php
  import opened Assoc

  /** A stored post: its fields (post_type, post_title, post_date, ...), its meta, its terms per taxonomy. */
  datatype Post = Post(fields: map<string, Value>, meta: map<string, Value>, terms: map<string, seq<int>>)

  /** Posts by native id, terms by (taxonomy, slug), and the next ids the database would hand out. */
  datatype Store = Store(posts: map<int, Post>, nextPostId: int, terms: map<(string, string), int>, nextTermId: int)

  /** The argument array of `wp_insert_post`: fields (possibly with "ID") and `meta_input`. */
  datatype PostArgs = PostArgs(fields: Entries<Value>, metaInput: Entries<Value>)

  /**
   * Everything the model treats as opaque: `sanitize_text_field`, `sanitize_title`, the
   * `wp_date(strtotime(...))` reformatting, whether WordPress rejects a post write or a
   * term creation, and the current MySQL-format time.
   */
  datatype Env = Env(
    sanitizeTextField: Value -> string,
    sanitizeTitle: Value -> string,
    formatDate: Value -> Value,
    rejectsPost: PostArgs -> bool,
    rejectsTerm: (string, Value) -> bool,
    now: string)

  /** Native post ids are positive and below the next id to be handed out. */
  ghost predicate Valid(s: Store) {
    && s.nextPostId >= 1
    && forall id | id in s.posts :: 1 <= id < s.nextPostId
  }

  /** The post is of `postType` and its meta `key` holds exactly `value`. */
  predicate Matches(p: Post, postType: string, key: string, value: Value) {
    && "post_type" in p.fields && p.fields["post_type"] == Str(postType)
    && key in p.meta && p.meta[key] == value
  }

  /** All posts of that post type whose meta `key` holds exactly `value`. */
  ghost function PostsWith(s: Store, postType: string, key: string, value: Value): set<int> {
    set id | id in s.posts && Matches(s.posts[id], postType, key, value)
  }

  /**
   * A `meta_value` that `WP_Meta_Query` drops from the query: null, "" and the empty array.
   * The query then tests only that the meta key exists.
   */
  predicate NoValueClause(v: Value) {
    v == Null || v == Str("") || v == List([])
  }

  /** What a `get_posts` query on post type, meta key and meta value matches. */
  predicate QueryMatches(p: Post, postType: string, key: string, value: Value) {
    && "post_type" in p.fields && p.fields["post_type"] == Str(postType)
    && key in p.meta && (NoValueClause(value) || p.meta[key] == value)
  }

  /**
   * `get_posts([... 'posts_per_page' => 1, 'meta_key' => key, 'meta_value' => value])`: the
   * least matching id. For a value the query keeps, a match holds exactly that value; for
   * one it drops, any post of the type carrying the key matches.
   */
  function FindPost(s: Store, postType: string, key: string, value: Value): (r: Option<int>)
    ensures r.Some? ==> r.value in s.posts && QueryMatches(s.posts[r.value], postType, key, value)
    ensures r.Some? && !NoValueClause(value) ==> Matches(s.posts[r.value], postType, key, value)
    ensures r.Some? ==> forall id | id in s.posts && 1 <= id < r.value :: !QueryMatches(s.posts[id], postType, key, value)
    ensures r.None? && Valid(s) ==> forall id | id in s.posts :: !QueryMatches(s.posts[id], postType, key, value)
    ensures r.None? && Valid(s) ==> PostsWith(s, postType, key, value) == {}
  {
    var r := FindFrom(s, postType, key, value, 1);
    assert forall id | id in s.posts && Matches(s.posts[id], postType, key, value) :: QueryMatches(s.posts[id], postType, key, value);
    r
  }

  function FindFrom(s: Store, postType: string, key: string, value: Value, from: int): (r: Option<int>)
    ensures r.Some? ==> from <= r.value && r.value in s.posts && QueryMatches(s.posts[r.value], postType, key, value)
    ensures r.Some? ==> forall id | id in s.posts && from <= id < r.value :: !QueryMatches(s.posts[id], postType, key, value)
    ensures r.None? ==> forall id | id in s.posts && from <= id < s.nextPostId :: !QueryMatches(s.posts[id], postType, key, value)
    decreases s.nextPostId - from
  {
    if from >= s.nextPostId then None
    else if from in s.posts && QueryMatches(s.posts[from], postType, key, value) then Some(from)
    else FindFrom(s, postType, key, value, from + 1)
  }

  /** The post_date WordPress stores: the given one when non-empty, otherwise the current time. */
  function StoredFields(env: Env, args: PostArgs): map<string, Value> {
    var m := ToMap(Remove(args.fields, "ID"));
    if "post_date" in m && Truthy(m["post_date"]) then m else m["post_date" := Str(env.now)]
  }

  /**
   * `wp_insert_post($args)`: with an "ID" naming a stored post, that post's fields are
   * replaced and `meta_input` is written over its meta; without one, a new post takes the
   * next id. A rejected write, or an "ID" that names no post, returns 0 and stores nothing.
   */
  function InsertPost(env: Env, s: Store, args: PostArgs): (r: (Store, int))
    ensures r.1 == 0 ==> r.0 == s
    ensures r.1 != 0 ==> r.1 in r.0.posts && r.0.posts[r.1].fields == StoredFields(env, args)
    ensures r.1 != 0 ==> forall k | Has(args.metaInput, k) :: k in r.0.posts[r.1].meta && Get(args.metaInput, k) == Some(r.0.posts[r.1].meta[k])
    ensures r.1 != 0 && !Has(args.fields, "ID") ==> r.1 == s.nextPostId && r.0.posts.Keys == s.posts.Keys + {r.1}
    ensures r.1 != 0 && Has(args.fields, "ID") ==> Get(args.fields, "ID") == Some(Int(r.1)) && r.1 in s.posts && r.0.posts.Keys == s.posts.Keys
    ensures r.1 != 0 && Has(args.fields, "ID") ==> r.0.posts[r.1].terms == s.posts[r.1].terms
    ensures forall id | id in s.posts && id != r.1 :: id in r.0.posts && r.0.posts[id] == s.posts[id]
    ensures r.0.terms == s.terms && r.0.nextTermId == s.nextTermId
    ensures Valid(s) ==> Valid(r.0)
  {
    if env.rejectsPost(args) then (s, 0)
    else
      var fields := StoredFields(env, args);
      match Get(args.fields, "ID")
      case None =>
        var id := s.nextPostId;
        if id == 0 then (s, 0)
        else (s.(posts := s.posts[id := Post(fields, ToMap(args.metaInput), map[])], nextPostId := id + 1), id)
      case Some(v) =>
        if v.Int? && v.i != 0 && v.i in s.posts then
          var prior := s.posts[v.i];
          (s.(posts := s.posts[v.i := Post(fields, prior.meta + ToMap(args.metaInput), prior.terms)]), v.i)
        else (s, 0)
  }

  /** `term_exists($slug, $taxonomy)`: the id of the term with that slug, if any. */
  function TermExists(s: Store, taxonomy: string, slug: string): Option<int> {
    if (taxonomy, slug) in s.terms then Some(s.terms[(taxonomy, slug)]) else None
  }

  /** `wp_insert_term($term, $taxonomy)`: a new term under the term's slug, unless WordPress rejects it. */
  function InsertTerm(env: Env, s: Store, taxonomy: string, term: Value): (r: (Store, Option<int>))
    ensures r.1.None? <==> env.rejectsTerm(taxonomy, term)
    ensures r.1.None? ==> r.0 == s
    ensures r.1.Some? ==> TermExists(r.0, taxonomy, env.sanitizeTitle(term)) == r.1
    ensures r.1.Some? ==> r.0.terms.Keys == s.terms.Keys + {(taxonomy, env.sanitizeTitle(term))}
    ensures forall k | k in s.terms && k != (taxonomy, env.sanitizeTitle(term)) :: r.0.terms[k] == s.terms[k]
    ensures r.0.nextTermId >= s.nextTermId
    ensures r.0.posts == s.posts && r.0.nextPostId == s.nextPostId
  {
    if env.rejectsTerm(taxonomy, term) then (s, None)
    else
      var id := s.nextTermId;
      (s.(terms := s.terms[(taxonomy, env.sanitizeTitle(term)) := id], nextTermId := id + 1), Some(id))
  }

  /** `wp_set_object_terms($postId, $ids, $taxonomy, false)`: the post's terms in that taxonomy become exactly `ids`. */
  function SetObjectTerms(s: Store, postId: int, taxonomy: string, ids: seq<int>): (r: Store)
    ensures postId in s.posts ==> postId in r.posts && taxonomy in r.posts[postId].terms && r.posts[postId].terms[taxonomy] == ids
    ensures r.posts.Keys == s.posts.Keys
    ensures forall id | id in s.posts :: r.posts[id].fields == s.posts[id].fields && r.posts[id].meta == s.posts[id].meta
    ensures forall id | id in s.posts && id != postId :: r.posts[id] == s.posts[id]
    ensures forall t | t != taxonomy && postId in s.posts && t in s.posts[postId].terms ::
              t in r.posts[postId].terms && r.posts[postId].terms[t] == s.posts[postId].terms[t]
    ensures r.terms == s.terms && r.nextPostId == s.nextPostId && r.nextTermId == s.nextTermId
  {
    if postId in s.posts then
      var p := s.posts[postId];
      s.(posts := s.posts[postId := p.(terms := p.terms[taxonomy := ids])])
    else s
  }
}

=== FILE: wrappers.dfy ===
/** Failure-compatible Option and Result types shared by every module of the model. */
module Wrappers {

  /** An optional value: the PHP `null`/`false` "nothing here" return, or a value. */
  datatype Option<+T> = None | Some(value: T) {

    /** The wrapped value, or `default` when there is none. */
    function GetOr(default: T): T {
      match this
      case Some(v) => v
      case None => default
    }
  }

  /** Either a value or the error that was thrown instead of producing it. */
  datatype Result<+T, +E> = Ok(value: T) | Err(error: E) {

    predicate IsFailure() {
      Err?
    }

    function PropagateFailure<U>(): Result<U, E>
      requires Err?
    {
      Err(error)
    }

    function Extract(): T
      requires Ok?
    {
      value
    }
  }
}
